=== FILE: README.md ===
# Limits, homing and the Bungard latch bus in Dafny

This project models the machine-facing core of a grbl fork that drives a
Bungard PCB-milling machine through a bit-banged parallel port. It has four parts:

- **Bungard** (`bungard.dfy`): the latch layer. A single byte-wide bus is committed by a
  strobe. D7 selects the step register or a configuration latch, D6 picks the
  latch (or, in a step byte, carries the limit-override flag), and D0..D5
  are the payload. The driver caches the two write-only latches and the
  override flag. The model records the bus as the two AVR port registers
  plus the list of bytes the board saw at each strobe. The board's reading
  of a byte is `Decode`, and its latch contents after a sequence of strobes is
  `DeviceLatch`. So "the cache equals the board" (`Coherent`) is a property
  of the whole strobe history, not of the last write alone.
- **Spindle** (`spindle.dfy`): spindle control on top of the latch layer. On/off is
  the enable bit of latch 1 and the speed is its low nibble. Only the integer
  path is modelled: the PWM byte for an rpm arrives as a value.
- **Limits** (`limits.dfy`): limit handling.
  - pin normalisation and `limits_get_state`;
  - the immediate and debounced hard-limit interrupt routines, each one atomic transition over the
    interrupt enables;
  - arming in `limits_init`;
  - `limits_soft_check` with its feed-hold wait.
- **Homing** (`homing.dfy`): `limits_go_home`. Its collaborators (planner, step
  engine, realtime executor, alarm raising, delays) are recorded as an
  `Effect` log. Everything the poll loop reads comes from a finite trace of
  `PollObs`: PINB, reset, door, cycle stop, and alarm-pending. A run that
  exhausts the trace ends `OutOfTrace`, so every call terminates. The homing
  method returns the log of every group motion (`GroupRun`) and proves it
  follows the schedule:
  - passes alternate starting with an approach;
  - rates and travels are per pass;
  - target signs are per axis;
  - the lock gains the group's step pins and starts empty at each pass;
  - the override is on exactly while retreating;
  - the outcome is completion, abort, or starvation, each with its final state.

`System` (`system.dfy`) holds the shared vocabulary: axis indices, `bit()`,
system states, alarm codes and effects.

Points of the code that the model keeps as written:

- The cycle runs 2·N+2 passes. The counter starts at 2·N+1 and the loop
  condition `n_cycle-- > 0` is tested after each pass (limits.c:165, 280).
- After the first pass, approaches use the pull-off distance times 1.25 at
  the feed rate, and retreats use the pull-off distance at the seek rate
  (limits.c:271-277).
- A cycle stop in the X/Y group while approaching raises the approach
  failure even when a reset or door event arrives in the same iteration
  (limits.c:244-250). The reset or door code is raised as well.
- The axis lock is not cleared on completion or abort (limits.c:290-309).
- Both inversions of the limit inputs are exclusive-ors over the whole
  limit mask (limits.c:72-76). With hardware invert mask 0b100, default
  polarity and raw input 0b100, every limit input reads as triggered
  (lemma `Limits.DoubleInversion`).
- An abort seen during the soft-limit feed-hold wait returns without raising
  the soft-limit alarm and without a reset (limits.c:327).

## Model

| member | source | states |
|---|---|---|
| Bungard.PowerUp | grbl/bungard.c:17-35 | Caches and override flag start at zero, which is coherent with a board that has seen no strobe |
| Bungard.CodecRoundTrip | grbl/bungard.c:3-33 | Every bus byte is exactly one board command: register select D7, latch select D6, payload D0-D5; decode/encode are mutually inverse on expressible commands |
| Bungard.WriteByte | grbl/bungard.c:38-49 | PORTB 0-1 carry D6-D7 and PORTD 2-7 carry D0-D5; all other port bits are kept; the strobe ends low; the board sees exactly the byte; caches are untouched |
| Bungard.WriteLatch | grbl/bungard.c:51-62 | For latch 0 or 1: PORTB bit 1 is register select and bit 0 the latch number; D6-D7 of the data are dropped; the board decodes a load of that latch with the six payload bits; the strobe ends low |
| Bungard.SetSteppersEnable | grbl/bungard.c:70-80 | Microstep bits cleared, enable bit equals the request, the other latch-2 bits kept, and exactly one latch-2 write carrying the new cache, even when nothing changed |
| Bungard.SteppersStep | grbl/bungard.c:82-85 | One step byte with D7 clear and D6 equal to the override flag, which the board decodes as the six step outputs |
| Bungard.SetLimitOverride | grbl/bungard.c:87-93 | Flag becomes 0x40 or 0 as requested, with no bus traffic and no cache change |
| Bungard.SetSpindleEnable | grbl/bungard.c:96-108 | The enable reads back as requested; the other latch-1 bits are kept; a latch-1 write carrying the new cache is issued if and only if the cached value changed |
| Bungard.SetSpindleSpeed | grbl/bungard.c:110-119 | Low nibble set to the speed's low nibble, enable set, bits 5-7 kept, and a write only when the cache changed |
| Bungard.GetSpindleEnable | grbl/bungard.c:131-134 | The cached enable bit; while the cache is coherent it is the enable bit the board's latch 1 holds, once the board has been sent a latch-1 value |
| Bungard.SetSpindleBrake | grbl/bungard.c:121-128 | No cache change and no bus write |
| Bungard.DeviceLatchAppend | grbl/bungard.c:5-6 | A strobe overrides the board's latch exactly when it addresses that latch |
| Bungard.SteppersEnableKeepsCoherent | grbl/bungard.c:70-80 | A latch-2 write keeps both caches equal to the board's latches |
| Bungard.SteppersStepKeepsCoherent | grbl/bungard.c:82-85 | A step byte never changes a board latch, so coherence survives |
| Bungard.SpindleEnableKeepsCoherent | grbl/bungard.c:96-108 | The write-on-change enable setter keeps coherence |
| Bungard.SpindleSpeedKeepsCoherent | grbl/bungard.c:110-119 | The write-on-change speed setter keeps coherence |
| Bungard.SettersKeepCoherent | grbl/bungard.c:70-128 | Every semantic setter preserves the cache invariant |
| Bungard.RepeatedSetters | grbl/bungard.c:70-119 | Repeating a spindle setter changes nothing and adds no write; repeating the stepper-enable setter writes again |
| Spindle.GetState | grbl/spindle_control.c:40-43 | Clockwise if and only if the cached enable bit is set |
| Spindle.Stop | grbl/spindle_control.c:49-53 | The spindle reads disabled afterwards, only the enable bit changes, and a write happens only if it was running |
| Spindle.Init | grbl/spindle_control.c:30-37 | After initialisation the spindle reads disabled and no other latch-1 bit changed |
| Spindle.SetSpeed | grbl/spindle_control.c:59-66 | The off value is exactly a stop; any other value runs clockwise with nibble (value - min) mod 256 and bits 5-7 kept |
| Spindle.SetState | grbl/spindle_control.c:102-115 | No effect at all under abort; disabling zeroes the recorded speed and stops; running records the speed and applies the PWM value; every non-aborted call zeroes the report counter |
| Spindle.Sync | grbl/spindle_control.c:102-126 | Nothing in check mode; otherwise one planner drain, then the set-state guard applied to the abort flag as the drain leaves it, which is set when it was set before the sync or the drain raised it: with an abort, bus, speed and report counter stay as they were; without one, a disable stops the spindle and zeroes the speed, and a run request runs it exactly when its value is not "off" |
| Spindle.SyncKeepsCoherent | grbl/spindle_control.c:102-126 | A sync keeps the cache coherent with the board; an abort pending before the sync stays set and leaves the board untouched; and when it acts the board's spindle runs if and only if a run request with a value other than "off" was made |
| Spindle.SetSpeedIdempotent | grbl/spindle_control.c:59-66 | Repeating a speed command is the same command, with at most one write |
| Spindle.RunRequestRuns | grbl/spindle_control.c:107-115 | A run request with a non-off value leaves the spindle clockwise and the cache coherent with the board |
| Limits.NormalisedPins | grbl/limits.c:72-76 | Only limit inputs and hardware-inverted bits survive; the two inversions commute |
| Limits.AxisBits | grbl/limits.c:77-82 | Bit j set exactly when j is at or after the loop start and axis j's pin is triggered; nothing above the axes |
| Limits.GetState | grbl/limits.c:69-84 | Bit idx set if and only if the normalised pins hit axis idx's pin mask; no bit at or above N_AXIS |
| Limits.DoubleInversion | grbl/limits.c:73-76 | Invert mask 0b100, default polarity, raw 0b100 reads every limit input as triggered |
| Limits.Init | grbl/limits.c:33-55 | The pin-change interrupt is armed if and only if hard limits are enabled; the debounced build leaves the watchdog interrupt disabled, the immediate build leaves it as it was |
| Limits.Disable | grbl/limits.c:59-63 | The pin-change interrupt is off, the watchdog untouched |
| Limits.ImmediateTrip | grbl/limits.c:106-119 | Reset plus hard-limit alarm exactly when not in alarm, no alarm pending, and (with the force-check build) some switch reads triggered; otherwise nothing |
| Limits.PinChange | grbl/limits.c:98-123 | Disabled interrupt does nothing; immediate build trips under the guard; debounced build only arms the timer, idempotently |
| Limits.WatchdogTimeout | grbl/limits.c:124-136 | Expiry disarms the timer, then trips exactly when not in alarm, no alarm pending and a switch still reads triggered |
| Limits.DisabledHardLimitsNeverTrip | grbl/limits.c:33-136 | With hard limits disabled a pin change after initialisation does nothing in either build, and in the debounced build the timer stays disarmed so its expiry never trips |
| Limits.DebounceBurst | grbl/limits.c:123-126 | A burst of pin changes arms the timer once, and its expiry leaves it disarmed |
| Limits.WaitForIdle | grbl/limits.c:325-328 | The wait ends at the first report that is an abort or idle, every earlier report kept it waiting, and the count is the executor calls made |
| Limits.SoftLimitCheck | grbl/limits.c:316-335 | Within limits: no effect; a violation sets the flag; outside a cycle: reset, soft-limit alarm, executor run with no feed hold; in a cycle: feed hold first, and the alarm if and only if idle was reached; no alarm or reset when the wait ended otherwise |
| Limits.SoftAlarmOrder | grbl/limits.c:323-333 | In a cycle, the first report that is an abort or idle decides: abort means no alarm, idle means alarm |
| Homing.CycleMaskMembers | grbl/limits.c:192-196 | Group 0 is Z alone and group 1 is X and Y, as the cycle mask selects them |
| Homing.AddPinsGroup | grbl/limits.c:194-211 | Adding the pins axis by axis as the loop does ors exactly Z's step pin (group 0) or X's and Y's step pins (group 1) into the lock, and keeps its earlier bits |
| Homing.SetupAxesLock | grbl/limits.c:194-211 | After the whole set-up loop the lock is the lock before it or Z's step pin for group 0, or X's and Y's step pins for group 1 |
| Homing.SetupAxesAxis | grbl/limits.c:194-211 | A group axis is zeroed and its target is +m iff approach == (axis is Z), else -m; every other axis keeps position and target |
| Homing.Classify | grbl/limits.c:241-259 | Continue iff no reset, door or cycle stop; abort iff reset, door, or a cycle stop with an approach failure or a pending alarm; reset, door and approach codes raised exactly on their conditions |
| Homing.HomeCheck | grbl/limits.c:231-235 | While approaching, a high home input clears the X, Y and Z step pins from the lock; otherwise the lock is unchanged |
| Homing.PollLoop | grbl/limits.c:229-261 | The loop reads a prefix of the trace, at least one observation unless the trace was empty, all of it when starved |
| Homing.PollLoopLock | grbl/limits.c:229-236 | The lock only loses bits, never changes while retreating, and is released when the loop ended for that reason |
| Homing.PollLoopQuiet | grbl/limits.c:241-261 | Every iteration before the last saw no reset, door or cycle stop |
| Homing.PollLoopEnd | grbl/limits.c:241-261 | The loop's end is the last iteration's exit test: abort with its codes, cycle stop, or lock released |
| Homing.ResetAbortsAtOnce | grbl/limits.c:241-254 | A reset ends the loop in that iteration with the reset failure; the approach failure appears only with a simultaneous X/Y cycle stop |
| Homing.RunGroup | grbl/limits.c:190-262 | One group: its motion is planned at the pass rate with the override as set, step control switches to system motion, the lock gains the group's pins, and the effects are plan, start, then the poll end's: alarms, reset and executor run on abort; clear cycle stop and kill steppers after a cycle stop; only kill steppers after a lock release; nothing when the observations run out; an X/Y approach that lets the cycle go on did so by releasing the lock, never by a cycle stop |
| Homing.RunGroupAxis | grbl/limits.c:194-211 | Only the group's axes are zeroed and re-aimed; other axes keep position and the target of the previous motion |
| Homing.RunPass | grbl/limits.c:181-263 | The X/Y group runs if and only if the Z group let the cycle continue |
| Homing.RunPassState | grbl/limits.c:186-258 | The override equals !approach for every group of the pass, step control is system motion, and the abort flag and latches are untouched |
| Homing.RunPassEnds | grbl/limits.c:186-262 | A pass's effects end with its last group's poll ending: alarms, reset and executor run after an abort |
| Homing.RunGroupPlanned | grbl/limits.c:190-228 | A group given its pass's direction, rate and travel runs as the schedule says |
| Homing.RunPassPlanned | grbl/limits.c:181-263 | A pass starts with an empty lock; the X/Y group starts from the lock and Z target the Z group left |
| Homing.NextPass | grbl/limits.c:267-277 | After a pass the direction flips and the travel and rate are those of the next pass |
| Homing.Finish | grbl/limits.c:290-309 | Completion sets every axis to 0, the override flag to 0x40 and step control to normal |
| Homing.OddCycleCount | grbl/limits.c:165 | The byte-wide counter starts odd, so the cycle ends after a retreat |
| Homing.RunPassPosition | grbl/limits.c:186-211 | A pass's last write to sys_position zeroed the axes of its last group, and left X and Y as it found them when only the Z group ran |
| Homing.HomingPass | grbl/limits.c:181-263 | One pass from the loop's cursor extends the group log on schedule, keeps abort flag, bus log and latches, sets the override for its direction, zeroes its last group's axes, agrees with the observations read, and after an aborted group ends the effects with its alarms, a reset and an executor run |
| Homing.PassOfLogged | grbl/limits.c:165-263 | The pass the cursor runs next, the search pass exactly while the counter still holds 2·N+1, keeps the log on schedule |
| Homing.PassOfRead | grbl/limits.c:229-261 | The pass reads its observations from the cursor on, and its last group agrees with everything read since homing began |
| Homing.PollLoopObs | grbl/limits.c:241-254 | Every observation the poll loop read was calm (no reset, no door, no cycle stop with an alarm pending), except the one it failed on |
| Homing.RunPassObs | grbl/limits.c:181-263 | A pass's last group agrees with the observations the pass read; a Z group that let the cycle continue read only calm observations |
| Homing.DisturbanceAborts | grbl/limits.c:241-254 | A reset, a door event or a cycle stop with an alarm pending, read during homing, aborts it on that observation, with the reset or door failure among the raised codes; a completed cycle saw none of them |
| Homing.ApproachFoundSwitches | grbl/limits.c:229-262 | In a completed cycle every X/Y approach ended by releasing the lock; a cycle stop there raises the approach failure and aborts |
| Homing.CycleTurn | grbl/limits.c:181-280 | One turn of the do/while either keeps the loop invariant with a smaller counter or ends homing with the homing guarantee |
| Homing.GoHome | grbl/limits.c:149-310 | A pending abort blocks homing untouched; otherwise every group follows the schedule, every X/Y approach that let the cycle go on released the lock, and every observation read was calm (no reset, no door, no cycle stop with an alarm pending) except the last one of an aborted cycle, whose exit test aborted it with the group's codes; completion takes n_cycle+1 passes (2·N+2 unless the byte-wide counter wraps), that is 2·(n_cycle+1) group motions, ending on a retreat, with homing's write of position 0, the override on and normal step control; an abort ends right after its alarms, a reset and an executor run, with step control still on system motion, the override as its last group left it, homing's last write to sys_position having zeroed that group's axes, and X and Y left at their starting positions when the first group motion aborted |

## Left out

- Timing: the `nop()` set-up and hold delays are not modelled. A strobe is modelled only by its final level and by the byte the board latched.
- `bel_init`, the data-direction and pull-up registers, and the reset-flag, change-enable and prescaler bits `limits_init` writes: these are hardware set-up with no decision in them. The model keeps only the effect of that write on the watchdog interrupt enable.
- `bungard.h`: it holds prototypes only.
- Floating point: `spindle_compute_pwm_value` and `pwm_gradient` are not modelled. The PWM byte and the recorded speed arrive as `PwmSetting`. Homing scalars, travels and rates are `real`s with no rounding.
- Homing.Settings.toMpos: `system_convert_array_steps_to_mpos` is an opaque function parameter.
- Limit and step pin masks are per-axis configuration values: `get_limit_pin_mask`, `get_step_pin_mask`, `LIMIT_MASK` and `STEP_MASK`.
- Limits.SoftLimitCheck: the travel-bounds test is its boolean `violates`. The executor's behaviour during the wait is a trace of reports.
- Planner, step engine, `mc_reset`, `protocol_execute_realtime`, `delay_ms` and `protocol_buffer_synchronize` are not modelled. They appear as logged effects or counters.
- Spindle.Sync: of what the planner drain does to `sys`, only whether it raises the abort flag is modelled, as an input. The contract says nothing about `sys.state` after the drain.
- Stepper-interrupt updates of `sys_position` while a homing motion runs are not modelled. Positions change only where homing writes them.
- Homing.GoHome: with several failures in one iteration it logs every alarm raise in order. It does not state which code `sys_rt_exec_alarm` holds afterwards, because that function is not part of this model.
- Homing.GoHome: the outcome `OutOfTrace` exists only in the model. It marks a finite trace that ended before the cycle did.
- Concurrency: there is no interleaving of interrupts with the foreground. Each interrupt routine is one atomic transition.
- Printing: the homing trace messages and the axis-lock dump are not modelled.
- Dead code is not modelled: the pull-off failure check (limits.c:248), the direction-aware home position (limits.c:295-301) and the brake write (bungard.c:123-127).
- Homing.InitialCycle: the counter is modelled as a byte, so for N above 127 the search pass is never recognised. The schedule lemmas hold for every N under that truncation.

=== FILE: bungard.dfy ===
/** The parallel-port link to the Bungard milling machine's controller board.

    One byte-wide bus, D0..D7, is committed by a strobe. D7 selects between
    the step register (0) and a configuration latch (1); for a latch write D6
    selects latch 1 (0) or latch 2 (1) and D0..D5 are the payload. In a step
    byte D6 is the limit-override flag and D0..D5 the step outputs.

    On the AVR the bus is split over two ports: D0..D5 are PORTD bits 2..7,
    D6 is PORTB bit 0, D7 is PORTB bit 1, and the strobe is PORTB bit 5.

    The two configuration latches cannot be read back, so the driver keeps a
    cached copy of each. `Bus` holds those caches, the limit-override flag,
    the two port registers, and the byte the board saw at every strobe so far. */
module Bungard {

  // Latch 1 (IC3): D0-D3 spindle speed, D4 spindle enable, D5 unknown.
  const LATCH1_WRITE_MASK: bv8 := 0x80
  const SPINDLE_SPEED_MASK: bv8 := 0x0F
  const SPINDLE_ENABLE_MASK: bv8 := 0x10

  // Latch 2 (IC4): D0 unknown, D1 spindle brake, D2-D3 microstepping, D4 steppers enable, D5 unknown.
  const LATCH2_WRITE_MASK: bv8 := 0xC0
  const STEPPERS_MICROSTEP_MASK: bv8 := 0x0C
  const STEPPERS_ENABLE_MASK: bv8 := 0x10

  /** Latch numbers as driven on D6 (PORTB bit 0). */
  const LATCH1: bv8 := 0
  const LATCH2: bv8 := 1

  /** D6 of a step byte: let the steppers move past the limit switches. */
  const LIMIT_OVERRIDE: bv8 := 0x40

  /** The six payload bits D0..D5. */
  const PAYLOAD_MASK: bv8 := 0x3F

  /** PORTB bit 5 drives the strobe line. */
  const STROBE: bv8 := 0x20

  datatype Bus = Bus(
    latch1: bv8,          // cached copy of latch 1
    latch2: bv8,          // cached copy of latch 2
    overrideFlag: bv8,    // D6 of every step byte: 0 or LIMIT_OVERRIDE
    portB: bv8,
    portD: bv8,
    strobes: seq<bv8>)    // D0..D7 as seen by the board at each strobe, oldest first

  /** The driver's state at power-up, before any bus write. */
  function PowerUp(portB: bv8, portD: bv8): (b: Bus)
    ensures Coherent(b)
  {
    Bus(0, 0, 0, portB, portD, [])
  }

  // ---------------------------------------------------------------------------
  // The wire: which bits of the two ports carry D0..D7

  /** The byte presented on D0..D7 by the two port registers. */
  function BusByte(portB: bv8, portD: bv8): bv8
  {
    ((portB & 0x03) << 6) | (portD >> 2)
  }

  /** What the board does with one strobed byte. */
  datatype Command =
    | StepOutputs(steps: bv8, limitOverride: bool)
    | LoadLatch(latch: bv8, payload: bv8)

  /** The board's reading of a strobed byte. */
  function Decode(x: bv8): Command
  {
    if x & LATCH1_WRITE_MASK == 0 then StepOutputs(x & PAYLOAD_MASK, x & LIMIT_OVERRIDE != 0)
    else if x & LATCH2_WRITE_MASK == LATCH2_WRITE_MASK then LoadLatch(LATCH2, x & PAYLOAD_MASK)
    else LoadLatch(LATCH1, x & PAYLOAD_MASK)
  }

  /** A command the bus can express: six payload bits and a real latch number. */
  predicate Expressible(c: Command)
  {
    match c
    case StepOutputs(steps, _) => steps & PAYLOAD_MASK == steps
    case LoadLatch(l, p) => (l == LATCH1 || l == LATCH2) && p & PAYLOAD_MASK == p
  }

  /** The byte that makes the board perform `c`. */
  function Encode(c: Command): bv8
  {
    match c
    case StepOutputs(steps, o) => (steps & PAYLOAD_MASK) | (if o then LIMIT_OVERRIDE else 0)
    case LoadLatch(l, p) => (if l == LATCH2 then LATCH2_WRITE_MASK else LATCH1_WRITE_MASK) | (p & PAYLOAD_MASK)
  }

  /** Every byte is a command and the encoding is exact: decoding then encoding
      gives the byte back, and encoding an expressible command then decoding
      gives the command back. */
  lemma CodecRoundTrip(x: bv8, c: Command)
    ensures Expressible(Decode(x)) && Encode(Decode(x)) == x
    ensures Expressible(c) ==> Decode(Encode(c)) == c
  {
  }

  /** The content of latch `l` on the board after the strobes `s`: the payload
      of the last write addressed to it, unknown if there was none. */
  datatype Latched = Unknown | Holds(value: bv8)

  function DeviceLatch(s: seq<bv8>, l: bv8): Latched
    decreases |s|
  {
    if s == [] then Unknown
    else
      match Decode(s[|s| - 1])
      case LoadLatch(k, p) => if k == l then Holds(p) else DeviceLatch(s[..|s| - 1], l)
      case StepOutputs(_, _) => DeviceLatch(s[..|s| - 1], l)
  }

  /** The cache is the board's latch: each cached latch fits in the six
      payload bits, and it equals what the board last latched, if anything;
      the override flag is one of its two values. */
  ghost predicate Coherent(b: Bus)
  {
    && b.latch1 & !PAYLOAD_MASK == 0
    && b.latch2 & !PAYLOAD_MASK == 0
    && (b.overrideFlag == 0 || b.overrideFlag == LIMIT_OVERRIDE)
    && DeviceLatch(b.strobes, LATCH1) in {Unknown, Holds(b.latch1)}
    && DeviceLatch(b.strobes, LATCH2) in {Unknown, Holds(b.latch2)}
  }

  // ---------------------------------------------------------------------------
  // bel_write_byte / bel_write_latch

  /** bel_write_byte: put `d` on the bus and pulse the strobe. */
  function WriteByte(b: Bus, d: bv8): (r: Bus)
    ensures r.portB & 0x03 == d >> 6                       // PORTB 0-1 carry D6-D7
    ensures r.portD >> 2 == d & PAYLOAD_MASK               // PORTD 2-7 carry D0-D5
    ensures r.portB & 0xDC == b.portB & 0xDC               // PORTB 2-4 and 6-7 untouched
    ensures r.portD & 0x03 == b.portD & 0x03               // PORTD 0-1 untouched
    ensures r.portB & STROBE == 0                          // strobe ends low
    ensures r.strobes == b.strobes + [d]                   // the board saw exactly d
    ensures r.latch1 == b.latch1 && r.latch2 == b.latch2 && r.overrideFlag == b.overrideFlag
  {
    var portB := (b.portB & 0xFC) | (d >> 6);
    var portD := (b.portD & 0x03) | (d << 2);
    var high := portB | STROBE;
    b.(portB := high & !STROBE, portD := portD, strobes := b.strobes + [BusByte(high, portD)])
  }

  /** bel_write_latch: address latch `latch` with D7 set and pulse the strobe.
      Only D0..D5 of `data` reach the wire. */
  function WriteLatch(b: Bus, latch: bv8, data: bv8): (r: Bus)
    ensures latch == LATCH1 || latch == LATCH2 ==>
      && r.portB & 0x03 == 0x02 | latch                    // register select, then latch select
      && r.portB & 0xDC == b.portB & 0xDC
      && r.strobes == b.strobes + [(if latch == LATCH2 then LATCH2_WRITE_MASK else LATCH1_WRITE_MASK) | (data & PAYLOAD_MASK)]
      && Decode(r.strobes[|b.strobes|]) == LoadLatch(latch, data & PAYLOAD_MASK)
    ensures r.portD >> 2 == data & PAYLOAD_MASK
    ensures r.portD & 0x03 == b.portD & 0x03
    ensures r.portB & STROBE == 0
    ensures |r.strobes| == |b.strobes| + 1 && r.strobes[..|b.strobes|] == b.strobes
    ensures r.latch1 == b.latch1 && r.latch2 == b.latch2 && r.overrideFlag == b.overrideFlag
  {
    var portB := (b.portB & 0xFC) | latch | 0x02;
    var portD := (b.portD & 0x03) | (data << 2);
    var high := portB | STROBE;
    b.(portB := high & !STROBE, portD := portD, strobes := b.strobes + [BusByte(high, portD)])
  }

  // ---------------------------------------------------------------------------
  // Semantic setters

  /** bel_set_steppers_enable: clear the microstep bits, set or clear the
      enable bit, and write latch 2 unconditionally. */
  function SetSteppersEnable(b: Bus, enable: bool): (r: Bus)
    ensures r.latch2 & STEPPERS_MICROSTEP_MASK == 0
    ensures (r.latch2 & STEPPERS_ENABLE_MASK != 0) == enable
    ensures r.latch2 & !(STEPPERS_MICROSTEP_MASK | STEPPERS_ENABLE_MASK) == b.latch2 & !(STEPPERS_MICROSTEP_MASK | STEPPERS_ENABLE_MASK)
    ensures r.strobes == b.strobes + [LATCH2_WRITE_MASK | (r.latch2 & PAYLOAD_MASK)]
    ensures r.latch1 == b.latch1 && r.overrideFlag == b.overrideFlag
  {
    var cleared := b.latch2 & !STEPPERS_MICROSTEP_MASK;
    var latch2 := if enable then cleared | STEPPERS_ENABLE_MASK else cleared & !STEPPERS_ENABLE_MASK;
    WriteLatch(b.(latch2 := latch2), LATCH2, latch2)
  }

  /** bel_steppers_step: emit a step byte carrying the six step outputs and
      the current limit-override flag. */
  function SteppersStep(b: Bus, data: bv8): (r: Bus)
    ensures |r.strobes| == |b.strobes| + 1 && r.strobes[..|b.strobes|] == b.strobes
    ensures b.overrideFlag == 0 || b.overrideFlag == LIMIT_OVERRIDE ==>
      && r.strobes[|b.strobes|] & LATCH1_WRITE_MASK == 0
      && r.strobes[|b.strobes|] & LIMIT_OVERRIDE == b.overrideFlag
      && Decode(r.strobes[|b.strobes|]) == StepOutputs(data & PAYLOAD_MASK, b.overrideFlag == LIMIT_OVERRIDE)
    ensures r.latch1 == b.latch1 && r.latch2 == b.latch2 && r.overrideFlag == b.overrideFlag
  {
    WriteByte(b, (data & PAYLOAD_MASK) | b.overrideFlag)
  }

  /** bel_set_steppers_limit_override_enable: memory only, no bus traffic. */
  function SetLimitOverride(b: Bus, enable: bool): (r: Bus)
    ensures r.overrideFlag == (if enable then LIMIT_OVERRIDE else 0)
    ensures r.strobes == b.strobes && r.portB == b.portB && r.portD == b.portD
    ensures r.latch1 == b.latch1 && r.latch2 == b.latch2
  {
    b.(overrideFlag := if enable then LIMIT_OVERRIDE else 0)
  }

  /** bel_get_spindle_enable: a read of the cache, never of the bus. While
      the cache is coherent it answers what the board's latch 1 holds, once
      the board has been sent a latch-1 value at all. */
  function GetSpindleEnable(b: Bus): (e: bool)
    ensures Coherent(b) && DeviceLatch(b.strobes, LATCH1).Holds? ==>
      (e <==> DeviceLatch(b.strobes, LATCH1).value & SPINDLE_ENABLE_MASK != 0)
  {
    b.latch1 & SPINDLE_ENABLE_MASK != 0
  }

  /** bel_set_spindle_enable: change the enable bit of latch 1, writing the
      latch only when the cached value changes. */
  function SetSpindleEnable(b: Bus, enable: bool): (r: Bus)
    ensures GetSpindleEnable(r) == enable
    ensures r.latch1 & !SPINDLE_ENABLE_MASK == b.latch1 & !SPINDLE_ENABLE_MASK
    ensures r.strobes == b.strobes + (if r.latch1 == b.latch1 then [] else [LATCH1_WRITE_MASK | (r.latch1 & PAYLOAD_MASK)])
    ensures r.latch1 == b.latch1 <==> GetSpindleEnable(b) == enable
    ensures r.latch2 == b.latch2 && r.overrideFlag == b.overrideFlag
  {
    var latch1 := if enable then b.latch1 | SPINDLE_ENABLE_MASK else b.latch1 & !SPINDLE_ENABLE_MASK;
    if latch1 != b.latch1 then WriteLatch(b.(latch1 := latch1), LATCH1, latch1) else b
  }

  /** bel_set_spindle_speed: put the low nibble of `speed` in latch 1, turn
      the spindle on, keep bits 5-7, and write only on change. */
  function SetSpindleSpeed(b: Bus, speed: bv8): (r: Bus)
    ensures r.latch1 & SPINDLE_SPEED_MASK == speed & SPINDLE_SPEED_MASK
    ensures GetSpindleEnable(r)
    ensures r.latch1 & 0xE0 == b.latch1 & 0xE0
    ensures r.strobes == b.strobes + (if r.latch1 == b.latch1 then [] else [LATCH1_WRITE_MASK | (r.latch1 & PAYLOAD_MASK)])
    ensures r.latch2 == b.latch2 && r.overrideFlag == b.overrideFlag
  {
    var latch1 := (b.latch1 & !SPINDLE_SPEED_MASK) | ((speed & SPINDLE_SPEED_MASK) | SPINDLE_ENABLE_MASK);
    if latch1 != b.latch1 then WriteLatch(b.(latch1 := latch1), LATCH1, latch1) else b
  }

  /** bel_set_spindle_brake: its body is commented out, so it changes nothing. */
  function SetSpindleBrake(b: Bus, enable: bool): (r: Bus)
    ensures r == b
  {
    b
  }

  // ---------------------------------------------------------------------------
  // Properties

  /** The last strobe decides the board's latch `l` if it addressed `l`;
      otherwise the earlier strobes do. */
  lemma DeviceLatchAppend(s: seq<bv8>, x: bv8, l: bv8)
    ensures DeviceLatch(s + [x], l) ==
      match Decode(x)
      case LoadLatch(k, p) => if k == l then Holds(p) else DeviceLatch(s, l)
      case StepOutputs(_, _) => DeviceLatch(s, l)
  {
    assert (s + [x])[..|s + [x]| - 1] == s;
  }

  /** A latch-2 write of the new cache keeps the cache coherent. */
  lemma SteppersEnableKeepsCoherent(b: Bus, e: bool)
    requires Coherent(b)
    ensures Coherent(SetSteppersEnable(b, e))
  {
    var r := SetSteppersEnable(b, e);
    DeviceLatchAppend(b.strobes, LATCH2_WRITE_MASK | (r.latch2 & PAYLOAD_MASK), LATCH1);
    DeviceLatchAppend(b.strobes, LATCH2_WRITE_MASK | (r.latch2 & PAYLOAD_MASK), LATCH2);
  }

  /** A step byte never addresses a latch. */
  lemma SteppersStepKeepsCoherent(b: Bus, d: bv8)
    requires Coherent(b)
    ensures Coherent(SteppersStep(b, d))
  {
    var x := (d & PAYLOAD_MASK) | b.overrideFlag;
    DeviceLatchAppend(b.strobes, x, LATCH1);
    DeviceLatchAppend(b.strobes, x, LATCH2);
  }

  /** A latch-1 write, when issued, carries the new cache. */
  lemma SpindleEnableKeepsCoherent(b: Bus, e: bool)
    requires Coherent(b)
    ensures Coherent(SetSpindleEnable(b, e))
  {
    var r := SetSpindleEnable(b, e);
    DeviceLatchAppend(b.strobes, LATCH1_WRITE_MASK | (r.latch1 & PAYLOAD_MASK), LATCH1);
    DeviceLatchAppend(b.strobes, LATCH1_WRITE_MASK | (r.latch1 & PAYLOAD_MASK), LATCH2);
  }

  lemma SpindleSpeedKeepsCoherent(b: Bus, d: bv8)
    requires Coherent(b)
    ensures Coherent(SetSpindleSpeed(b, d))
  {
    var r := SetSpindleSpeed(b, d);
    DeviceLatchAppend(b.strobes, LATCH1_WRITE_MASK | (r.latch1 & PAYLOAD_MASK), LATCH1);
    DeviceLatchAppend(b.strobes, LATCH1_WRITE_MASK | (r.latch1 & PAYLOAD_MASK), LATCH2);
  }

  /** Every setter keeps the cache equal to what the board holds. */
  lemma SettersKeepCoherent(b: Bus, e: bool, d: bv8)
    requires Coherent(b)
    ensures Coherent(SetSteppersEnable(b, e))
    ensures Coherent(SteppersStep(b, d))
    ensures Coherent(SetLimitOverride(b, e))
    ensures Coherent(SetSpindleEnable(b, e))
    ensures Coherent(SetSpindleSpeed(b, d))
    ensures Coherent(SetSpindleBrake(b, e))
  {
    SteppersEnableKeepsCoherent(b, e);
    SteppersStepKeepsCoherent(b, d);
    SpindleEnableKeepsCoherent(b, e);
    SpindleSpeedKeepsCoherent(b, d);
  }

  /** The spindle setters write on change only, so repeating one is silent;
      the stepper-enable setter writes every time, so repeating it writes again. */
  lemma RepeatedSetters(b: Bus, e: bool, d: bv8)
    ensures SetSpindleEnable(SetSpindleEnable(b, e), e) == SetSpindleEnable(b, e)
    ensures SetSpindleSpeed(SetSpindleSpeed(b, d), d) == SetSpindleSpeed(b, d)
    ensures |SetSpindleEnable(SetSpindleEnable(b, e), e).strobes| <= |b.strobes| + 1
    ensures |SetSteppersEnable(SetSteppersEnable(b, e), e).strobes| == |b.strobes| + 2
  {
  }
}

=== FILE: homing.dfy ===
/** The homing cycle (limits_go_home) of the PCB-milling controller.

    The cycle runs a fixed number of passes that alternate between approaching
    the home switches and retreating from them. The first pass searches over
    the whole travel range; later passes cover the pull-off distance. Each pass
    homes Z alone, then X and Y together. For each group it sets the group's
    targets, marks the group's step outputs in the axis lock, queues one
    system motion and polls until the motion finishes or a realtime event ends
    it. The board's limit override is on only while retreating.

    The planner, the step engine and the realtime executor are outside the
    model: what homing asks of them is logged as `Effect`s, and what the poll
    loop reads from them comes from a finite trace of `PollObs`. When the
    trace runs out before the cycle ends, the outcome is `OutOfTrace`. */
module Homing {
  import opened System
  import Bungard

  /** Search travel as a multiple of the axis travel. */
  const SEARCH_SCALAR: real := 1.125
  /** Locate travel as a multiple of the pull-off distance. */
  const LOCATE_SCALAR: real := 1.25
  /** PINB bit 2: the board reports that all axes are home. */
  const HOME_PIN: bv8 := 0x04

  /** Machine coordinates, one per axis. */
  type Vec = v: seq<real> | |v| == N_AXIS witness [0.0, 0.0, 0.0]
  /** Step counts, one per axis (`sys_position`). */
  type Steps = p: seq<int> | |p| == N_AXIS witness [0, 0, 0]

  datatype Settings = Settings(
    maxTravel: Vec,          // settings.max_travel, stored as negative values
    seekRate: real,          // settings.homing_seek_rate
    feedRate: real,          // settings.homing_feed_rate
    pulloff: real,           // settings.homing_pulloff
    locateCycles: nat,       // N_HOMING_LOCATE_CYCLE
    stepPin: seq<bv8>,       // get_step_pin_mask(idx) for each axis
    stepMask: bv8,           // STEP_MASK
    toMpos: Steps -> Vec)    // system_convert_array_steps_to_mpos

  predicate Valid(s: Settings)
  {
    |s.stepPin| == N_AXIS
  }

  datatype StepControl = NormalOp | ExecuteSysMotion

  /** The state homing reads and writes. */
  datatype Machine = Machine(
    abort: bool,               // sys.abort
    bus: Bungard.Bus,          // the board link, for its limit-override flag
    position: Steps,           // sys_position
    axisLock: bv8,             // sys.homing_axis_lock
    stepControl: StepControl,  // sys.step_control
    effects: seq<Effect>)

  /** What one iteration of the poll loop reads: the port carrying the
      home input, the realtime flags, and whether an alarm was already
      pending from elsewhere. */
  datatype PollObs = PollObs(pinB: bv8, reset: bool, door: bool, cycleStop: bool, alarmPending: bool)

  // ---------------------------------------------------------------------------
  // One group

  /** The axes homed together (`cycle_mask`): Z alone in group 0, X and Y
      in group 1. */
  function CycleMask(group: nat): bv8
  {
    if group == 0 then Bit(Z_AXIS) else Bit(X_AXIS) | Bit(Y_AXIS)
  }

  /** Axis `idx` moves in `group`. */
  predicate InGroup(group: nat, idx: nat)
  {
    if group == 0 then idx == Z_AXIS else idx == X_AXIS || idx == Y_AXIS
  }

  /** `InGroup` is the loop's test `bit_istrue(cycle_mask, bit(idx))`. */
  lemma CycleMaskMembers(group: nat, idx: nat)
    requires idx < N_AXIS
    ensures InGroup(group, idx) <==> CycleMask(group) & Bit(idx) != 0
  {
  }

  /** The travel used for axis `idx`: on the first pass the axis's search
      range (max_travel is negative, so this is positive), else the carried value. */
  function AxisMagnitude(s: Settings, first: bool, carried: real, idx: nat): real
    requires idx < N_AXIS
  {
    if first then -SEARCH_SCALAR * s.maxTravel[idx] else carried
  }

  /** `lock` with the step pins of the axes of `group` numbered `idx` or
      above added, one axis at a time as the set-up loop adds them. */
  function AddPins(s: Settings, group: nat, idx: nat, lock: bv8): bv8
    requires Valid(s)
    decreases N_AXIS - idx
  {
    if idx >= N_AXIS then lock
    else AddPins(s, group, idx + 1, if InGroup(group, idx) then Or(lock, s.stepPin[idx]) else lock)
  }

  /** Bitwise or, kept as a function of its own so that the lock's
      arithmetic stays out of the proofs that only carry it along. */
  function Or(a: bv8, b: bv8): bv8 { a | b }

  /** The step pins of the axes of `group`: Z's for group 0, X's and Y's
      for group 1. */
  function GroupPins(s: Settings, group: nat): bv8
    requires Valid(s)
  {
    if group == 0 then s.stepPin[Z_AXIS] else Or(s.stepPin[X_AXIS], s.stepPin[Y_AXIS])
  }

  /** The set-up loop over all axes adds exactly the group's step pins to the
      lock it starts from, and keeps the lock's other bits. */
  lemma AddPinsGroup(s: Settings, group: nat, lock: bv8)
    requires Valid(s)
    ensures AddPins(s, group, 0, lock) == Or(lock, GroupPins(s, group))
  {
    if group == 0 {
      AddPinsZ(s, group, lock);
    } else {
      AddPinsXY(s, group, lock);
      OrRegroup(lock, s.stepPin[X_AXIS], s.stepPin[Y_AXIS]);
    }
  }

  lemma AddPinsZ(s: Settings, group: nat, lock: bv8)
    requires Valid(s) && group == 0
    ensures AddPins(s, group, 0, lock) == Or(lock, s.stepPin[Z_AXIS])
  {
    assert AddPins(s, group, 0, lock) == AddPins(s, group, 2, lock);
  }

  lemma AddPinsXY(s: Settings, group: nat, lock: bv8)
    requires Valid(s) && group != 0
    ensures AddPins(s, group, 0, lock) == Or(Or(lock, s.stepPin[X_AXIS]), s.stepPin[Y_AXIS])
  {
  }

  lemma OrRegroup(a: bv8, b: bv8, c: bv8)
    ensures Or(Or(a, b), c) == Or(a, Or(b, c))
  {
  }

  /** The target an axis in the moving group is sent to: Z moves positive
      and X and Y move negative while approaching, and the reverse while
      retreating. */
  predicate Aimed(approach: bool, idx: nat, travel: real, target: real)
  {
    target == if approach == (idx == Z_AXIS) then travel else -travel
  }

  /** Values threaded through the per-axis set-up loop. */
  datatype Setup = Setup(position: Steps, target: Vec, lock: bv8, mag: real)

  /** The per-axis loop before a group's motion, from axis `idx` on: zero the
      position of each axis in the group, set its target away from or toward
      its switch, and add its step pin to the lock. What it does to each axis
      is SetupAxesAxis, and the lock it leaves is SetupAxesLock. */
  function SetupAxes(s: Settings, group: nat, approach: bool, first: bool, idx: nat, acc: Setup): (r: Setup)
    requires Valid(s) && idx <= N_AXIS
    ensures r.lock == AddPins(s, group, idx, acc.lock)
    ensures !first ==> r.mag == acc.mag
    decreases N_AXIS - idx
  {
    if idx == N_AXIS then acc
    else if InGroup(group, idx) then
      var m := AxisMagnitude(s, first, acc.mag, idx);
      var t := if idx != Z_AXIS then (if approach then -m else m) else (if approach then m else -m);
      SetupAxes(s, group, approach, first, idx + 1,
        Setup(acc.position[idx := 0], acc.target[idx := t], Or(acc.lock, s.stepPin[idx]), m))
    else SetupAxes(s, group, approach, first, idx + 1, acc)
  }

  /** The lock after the whole set-up loop is the lock before it with exactly
      the group's step pins added: Z's for group 0, X's and Y's for group 1. */
  lemma SetupAxesLock(s: Settings, group: nat, approach: bool, first: bool, acc: Setup)
    requires Valid(s)
    ensures SetupAxes(s, group, approach, first, 0, acc).lock == Or(acc.lock, GroupPins(s, group))
  {
    AddPinsGroup(s, group, acc.lock);
  }

  /** What the set-up loop does to axis `j`: an axis of the group not yet
      visited gets position zero and a target aimed by the approach state;
      every other axis keeps its position and target. */
  lemma {:induction false} SetupAxesAxis(s: Settings, group: nat, approach: bool, first: bool, idx: nat, acc: Setup, j: nat)
    requires Valid(s) && idx <= N_AXIS && j < N_AXIS
    ensures var r := SetupAxes(s, group, approach, first, idx, acc);
      if idx <= j && InGroup(group, j)
      then r.position[j] == 0 && Aimed(approach, j, AxisMagnitude(s, first, acc.mag, j), r.target[j])
      else r.position[j] == acc.position[j] && r.target[j] == acc.target[j]
    decreases N_AXIS - idx
  {
    if idx < N_AXIS {
      if InGroup(group, idx) {
        var m := AxisMagnitude(s, first, acc.mag, idx);
        var t := if idx != Z_AXIS then (if approach then -m else m) else (if approach then m else -m);
        var acc' := Setup(acc.position[idx := 0], acc.target[idx := t], Or(acc.lock, s.stepPin[idx]), m);
        SetupAxesAxis(s, group, approach, first, idx + 1, acc', j);
        if idx < j && !first {
          assert AxisMagnitude(s, first, acc'.mag, j) == AxisMagnitude(s, first, acc.mag, j);
        }
      } else {
        SetupAxesAxis(s, group, approach, first, idx + 1, acc, j);
      }
    }
  }

  /** How one poll iteration leaves the loop. */
  datatype Exit = Continue | Done | Abort(raised: seq<AlarmCode>)

  /** The exit test of one poll iteration. Reset, door or cycle stop leave the
      loop; reset and door raise their failure codes, and a cycle stop raises
      the approach failure only for the X/Y group while approaching. The loop
      aborts if any alarm is then pending, and otherwise ends normally. */
  function Classify(o: PollObs, group: nat, approach: bool): (e: Exit)
    ensures e.Continue? <==> Quiet(o)
    ensures e.Abort? <==>
      || o.reset || o.door
      || (o.cycleStop && ((group == 1 && approach) || o.alarmPending))
    ensures e.Abort? ==>
      && (HomingFailReset in e.raised <==> o.reset)
      && (HomingFailDoor in e.raised <==> o.door)
      && (HomingFailApproach in e.raised <==> group == 1 && approach && o.cycleStop)
  {
    if o.reset || o.door || o.cycleStop then
      var raised :=
        (if o.reset then [HomingFailReset] else [])
        + (if o.door then [HomingFailDoor] else [])
        + (if group == 1 && approach && o.cycleStop then [HomingFailApproach] else []);
      if raised != [] || o.alarmPending then Abort(raised) else Done
    else Continue
  }

  /** The home-input shortcut: while approaching, a high home input releases
      the locks of all three axes at once. */
  function HomeCheck(s: Settings, approach: bool, pinB: bv8, lock: bv8): (r: bv8)
    requires Valid(s)
    ensures approach && pinB & HOME_PIN != 0 ==>
      r == lock & !(s.stepPin[X_AXIS] | s.stepPin[Y_AXIS] | s.stepPin[Z_AXIS])
    ensures !(approach && pinB & HOME_PIN != 0) ==> r == lock
    ensures Within(r, lock)
  {
    if approach && pinB & HOME_PIN != 0 then
      lock & !s.stepPin[X_AXIS] & !s.stepPin[Y_AXIS] & !s.stepPin[Z_AXIS]
    else lock
  }

  /** No step output of the machine is locked any more: the poll loop's
      `while (STEP_MASK & axislock)` condition fails. */
  predicate Released(s: Settings, lock: bv8)
  {
    s.stepMask & lock == 0
  }

  /** Every bit of `a` is also set in `b`. */
  predicate Within(a: bv8, b: bv8)
  {
    a & !b == 0
  }

  /** Containment of bit sets is transitive. */
  lemma WithinTransitive(a: bv8, b: bv8, c: bv8)
    requires Within(a, b) && Within(b, c)
    ensures Within(a, c)
  {
  }

  /** How a group's poll loop ended. */
  datatype PollEnd = LockCleared | CycleStopped | Failed(raised: seq<AlarmCode>) | Starved

  predicate Continues(e: PollEnd)
  {
    e.LockCleared? || e.CycleStopped?
  }

  /** How the loop ended, the final lock, and how many observations it read. */
  datatype Poll = Poll(end: PollEnd, lock: bv8, used: nat)

  /** An observation with none of the flags that end the poll loop. */
  predicate Quiet(o: PollObs)
  {
    !o.reset && !o.door && !o.cycleStop
  }

  /** The first `n` observations all keep the loop polling. */
  ghost predicate KeepPolling(trace: seq<PollObs>, n: nat)
    requires n <= |trace|
    decreases n
  {
    n == 0 || (Quiet(trace[0]) && KeepPolling(trace[1..], n - 1))
  }

  /** How the last iteration's exit test matches the loop's end. */
  ghost predicate EndMatches(e: PollEnd, x: Exit)
  {
    match e
    case Failed(raised) => x == Abort(raised)
    case CycleStopped => x == Done
    case LockCleared => x == Continue
    case Starved => false
  }

  /** The poll loop: apply the home shortcut, publish the lock, then take the
      first exit the iteration's flags call for; otherwise go round again
      while any step output stays locked. */
  function PollLoop(s: Settings, group: nat, approach: bool, lock: bv8, trace: seq<PollObs>): (r: Poll)
    requires Valid(s)
    ensures r.used <= |trace|
    ensures r.end.Starved? ==> r.used == |trace|
    ensures !r.end.Starved? ==> r.used > 0
    decreases |trace|
  {
    if trace == [] then Poll(Starved, lock, 0)
    else
      var lock' := HomeCheck(s, approach, trace[0].pinB, lock);
      var x := Classify(trace[0], group, approach);
      if x.Abort? then Poll(Failed(x.raised), lock', 1)
      else if x.Done? then Poll(CycleStopped, lock', 1)
      else if Released(s, lock') then Poll(LockCleared, lock', 1)
      else
        var r := PollLoop(s, group, approach, lock', trace[1..]);
        r.(used := r.used + 1)
  }

  /** The lock the loop leaves: only ever cleared bits, never set new ones;
      untouched while retreating, where the home shortcut does not apply;
      and with every step output released when the loop ended for that
      reason. */
  lemma {:induction false} PollLoopLock(s: Settings, group: nat, approach: bool, lock: bv8, trace: seq<PollObs>)
    requires Valid(s)
    ensures var r := PollLoop(s, group, approach, lock, trace);
      && (r.end.LockCleared? ==> Released(s, r.lock))
      && Within(r.lock, lock)
      && (!approach ==> r.lock == lock)
    decreases |trace|
  {
    if trace != [] {
      var lock' := HomeCheck(s, approach, trace[0].pinB, lock);
      if Classify(trace[0], group, approach).Continue? && !Released(s, lock') {
        PollLoopLock(s, group, approach, lock', trace[1..]);
        WithinTransitive(PollLoop(s, group, approach, lock', trace[1..]).lock, lock', lock);
      }
    }
  }

  /** Every iteration before the last one read a quiet observation; when the
      observations ran out, all of them were quiet. */
  lemma {:induction false} PollLoopQuiet(s: Settings, group: nat, approach: bool, lock: bv8, trace: seq<PollObs>)
    requires Valid(s)
    ensures var r := PollLoop(s, group, approach, lock, trace);
      KeepPolling(trace, if r.end.Starved? then |trace| else r.used - 1)
    decreases |trace|
  {
    if trace != [] {
      var lock' := HomeCheck(s, approach, trace[0].pinB, lock);
      if Classify(trace[0], group, approach).Continue? && !Released(s, lock') {
        PollLoopQuiet(s, group, approach, lock', trace[1..]);
      }
    }
  }

  /** The loop ends as the exit test of its last iteration says: an abort or
      a finished motion when the flags call for one, otherwise a quiet
      iteration that found every step output released. */
  lemma {:induction false} PollLoopEnd(s: Settings, group: nat, approach: bool, lock: bv8, trace: seq<PollObs>)
    requires Valid(s)
    ensures var r := PollLoop(s, group, approach, lock, trace);
      !r.end.Starved? ==> EndMatches(r.end, Classify(trace[r.used - 1], group, approach))
    decreases |trace|
  {
    if trace != [] {
      var lock' := HomeCheck(s, approach, trace[0].pinB, lock);
      if Classify(trace[0], group, approach).Continue? && !Released(s, lock') {
        PollLoopEnd(s, group, approach, lock', trace[1..]);
        var r := PollLoop(s, group, approach, lock', trace[1..]);
        if !r.end.Starved? {
          assert trace[1..][r.used - 1] == trace[r.used];
        }
      }
    }
  }

  /** A reset seen by a poll iteration ends the loop in that iteration with
      the reset failure; the approach failure comes with it only when the
      same iteration also saw a cycle stop in the X/Y group while approaching. */
  lemma ResetAbortsAtOnce(s: Settings, group: nat, approach: bool, lock: bv8, trace: seq<PollObs>)
    requires Valid(s) && |trace| > 0 && trace[0].reset
    ensures var r := PollLoop(s, group, approach, lock, trace);
      && r.used == 1 && r.end.Failed?
      && HomingFailReset in r.end.raised
      && (HomingFailApproach in r.end.raised <==> group == 1 && approach && trace[0].cycleStop)
  {
  }

  /** An observation that aborts no group: neither a reset nor a
      safety-door event, nor a cycle stop while an alarm is pending. */
  predicate Calm(o: PollObs)
  {
    !o.reset && !o.door && !(o.cycleStop && o.alarmPending)
  }

  /** Every observation at an index in [lo, hi) is calm. */
  ghost predicate Undisturbed(trace: seq<PollObs>, lo: int, hi: int)
  {
    forall k {:trigger Calm(trace[k])} :: lo <= k < hi && 0 <= k < |trace| ==> Calm(trace[k])
  }

  /** What a group that read the `used` observations of `trace` from index
      `from` on saw: if it failed, the last of them is the one whose exit
      test aborted with the group's codes and every one before it was calm;
      otherwise all of them were. */
  ghost predicate Observed(trace: seq<PollObs>, from: nat, used: nat, run: GroupRun)
  {
    if run.end.Failed? then
      && 0 < used && from + used <= |trace|
      && Undisturbed(trace, from, from + used - 1)
      && Classify(trace[from + used - 1], run.group, run.approach) == Abort(run.end.raised)
    else Undisturbed(trace, from, from + used)
  }

  /** An observation that aborts every group is never read past: every
      observation the loop read before its last was calm, and so was the
      last one unless the loop failed on it. */
  lemma {:induction false} PollLoopObs(s: Settings, group: nat, approach: bool, lock: bv8, trace: seq<PollObs>)
    requires Valid(s)
    ensures var r := PollLoop(s, group, approach, lock, trace);
      Undisturbed(trace, 0, if r.end.Failed? then r.used - 1 else r.used)
    decreases |trace|
  {
    if trace != [] {
      var lock' := HomeCheck(s, approach, trace[0].pinB, lock);
      if Classify(trace[0], group, approach).Continue? && !Released(s, lock') {
        PollLoopObs(s, group, approach, lock', trace[1..]);
        var r := PollLoop(s, group, approach, lock', trace[1..]);
        var h := if r.end.Failed? then r.used - 1 else r.used;
        forall k | 0 <= k < h + 1 && k < |trace|
          ensures Calm(trace[k])
        {
          if k > 0 {
            assert trace[k] == trace[1..][k - 1];
          }
        }
      }
    }
  }

  /** Observations read from a suffix of the trace are the trace's own,
      shifted by where the suffix starts. */
  lemma ObservedShift(trace: seq<PollObs>, from: nat, used: nat, run: GroupRun)
    requires from <= |trace| && Observed(trace[from..], 0, used, run)
    ensures Observed(trace, from, used, run)
  {
    var rest := trace[from..];
    var hi := if run.end.Failed? then used - 1 else used;
    forall k | from <= k < from + hi && k < |trace|
      ensures Calm(trace[k])
    {
      assert Calm(rest[k - from]) && rest[k - from] == trace[k];
    }
    if run.end.Failed? {
      assert rest[used - 1] == trace[from + used - 1];
    }
  }

  /** A group that did not fail read only calm observations. */
  lemma ContinuedUndisturbed(trace: seq<PollObs>, used: nat, run: GroupRun)
    requires Observed(trace, 0, used, run) && !run.end.Failed?
    ensures Undisturbed(trace, 0, used)
  {
  }

  /** A group's observations read from a suffix of the trace, after
      undisturbed observations before the suffix. */
  lemma ObservedAfter(trace: seq<PollObs>, from: nat, used: nat, run: GroupRun)
    requires from <= |trace| && Undisturbed(trace, 0, from) && Observed(trace[from..], 0, used, run)
    ensures Observed(trace, 0, from + used, run)
  {
    ObservedShift(trace, from, used, run);
    ObservedJoin(trace, from, used, run);
  }

  /** Two groups read one after the other: the second agrees with
      everything the two read, provided the first let the cycle go on. */
  lemma ObservedPair(trace: seq<PollObs>, used0: nat, run0: GroupRun, used1: nat, run1: GroupRun)
    requires used0 <= |trace| && Observed(trace, 0, used0, run0) && !run0.end.Failed?
    requires Observed(trace[used0..], 0, used1, run1)
    ensures Observed(trace, 0, used0 + used1, run1)
  {
    ContinuedUndisturbed(trace, used0, run0);
    ObservedAfter(trace, used0, used1, run1);
  }

  /** Undisturbed observations followed by a group's observations. */
  lemma ObservedJoin(trace: seq<PollObs>, before: nat, used: nat, run: GroupRun)
    requires Undisturbed(trace, 0, before) && Observed(trace, before, used, run)
    ensures Observed(trace, 0, before + used, run)
  {
  }

  /** What follows a group's poll loop: on an abort the pending alarms, a
      system reset and a realtime run, and nothing else; otherwise the step
      engine is reset, after clearing a consumed cycle stop. */
  function PollEffects(e: PollEnd): (r: seq<Effect>)
  {
    match e
    case Failed(raised) => Raise(raised) + [SystemReset, ExecuteRealtime]
    case CycleStopped => [ClearCycleStop, KillSteppers]
    case LockCleared => [KillSteppers]
    case Starved => []
  }

  /** The record of one group's motion within a pass. */
  datatype GroupRun = GroupRun(
    pass: nat,            // 0 for the search pass
    group: nat,           // 0 for Z, 1 for X and Y
    approach: bool,
    overrideFlag: bv8,    // the board's limit-override flag during the motion
    target: Vec,          // the planned target
    rate: real,           // the planned feed rate
    lockIn: bv8,          // the axis lock before the group's set-up
    lock: bv8,            // the axis lock when the motion starts
    end: PollEnd,
    lockOut: bv8)         // the axis lock when the poll loop ends

  /** A group's result: the machine after it, the target and travel it
      leaves for the next group, its record, and the observations it read. */
  datatype Step = Step(m: Machine, target: Vec, mag: real, run: GroupRun, used: nat)

  /** One group of one pass: set up its axes, queue the motion, start the
      steppers and poll. */
  function RunGroup(s: Settings, m: Machine, pass: nat, group: nat, approach: bool, first: bool,
                    mag: real, rate: real, base: Vec, lockIn: bv8, trace: seq<PollObs>): (r: Step)
    requires Valid(s)
    ensures r.used <= |trace| && (r.run.end.Starved? ==> r.used == |trace|)
    ensures !r.run.end.Starved? ==> r.used > 0
    ensures r.run.pass == pass && r.run.group == group && r.run.approach == approach
    ensures r.run.rate == rate && r.run.overrideFlag == m.bus.overrideFlag
    ensures r.run.target == r.target && r.run.lockIn == lockIn
    ensures r.run.lock == Or(lockIn, GroupPins(s, group))
    ensures r.m.bus == m.bus && r.m.abort == m.abort && r.m.stepControl == ExecuteSysMotion
    ensures r.m.axisLock == r.run.lockOut
    ensures r.m.effects == m.effects + [PlanLine(r.target, rate), StartSteppers] + PollEffects(r.run.end)
    ensures !first ==> r.mag == mag
    ensures group == 1 && approach && Continues(r.run.end) ==> r.run.end.LockCleared?
  {
    var su := SetupAxes(s, group, approach, first, 0, Setup(m.position, base, lockIn, mag));
    var p := PollLoop(s, group, approach, su.lock, trace);
    PollLoopEnd(s, group, approach, su.lock, trace);
    var m' := m.(position := su.position, axisLock := p.lock, stepControl := ExecuteSysMotion,
                 effects := m.effects + [PlanLine(su.target, rate), StartSteppers] + PollEffects(p.end));
    SetupAxesLock(s, group, approach, first, Setup(m.position, base, lockIn, mag));
    Step(m', su.target, su.mag,
         GroupRun(pass, group, approach, m.bus.overrideFlag, su.target, rate, lockIn, su.lock, p.end, p.lock),
         p.used)
  }

  /** What a group does to axis `j`: an axis of the group is zeroed and aimed
      by the approach state; any other axis keeps its position, and its
      target stays where the previous motion left it. */
  lemma RunGroupAxis(s: Settings, m: Machine, pass: nat, group: nat, approach: bool, first: bool,
                     mag: real, rate: real, base: Vec, lockIn: bv8, trace: seq<PollObs>, j: nat)
    requires Valid(s) && j < N_AXIS
    ensures var r := RunGroup(s, m, pass, group, approach, first, mag, rate, base, lockIn, trace);
      if InGroup(group, j)
      then r.m.position[j] == 0 && Aimed(approach, j, AxisMagnitude(s, first, mag, j), r.target[j])
      else r.m.position[j] == m.position[j] && r.target[j] == base[j]
  {
    SetupAxesAxis(s, group, approach, first, 0, Setup(m.position, base, lockIn, mag), j);
  }

  /** A group's record agrees with the observations it read. */
  lemma RunGroupObs(s: Settings, m: Machine, pass: nat, group: nat, approach: bool, first: bool,
                    mag: real, rate: real, base: Vec, lockIn: bv8, trace: seq<PollObs>)
    requires Valid(s)
    ensures var r := RunGroup(s, m, pass, group, approach, first, mag, rate, base, lockIn, trace);
      Observed(trace, 0, r.used, r.run)
  {
    var su := SetupAxes(s, group, approach, first, 0, Setup(m.position, base, lockIn, mag));
    PollLoopObs(s, group, approach, su.lock, trace);
    PollLoopEnd(s, group, approach, su.lock, trace);
  }

  // ---------------------------------------------------------------------------
  // The passes

  /** One pass: the Z group, then, unless it stopped the cycle, the X/Y
      group. Targets of axes outside a group start from the machine
      position at the start of the pass; the axis lock starts empty. */
  datatype PassRun = PassRun(m: Machine, runs: seq<GroupRun>, used: nat)

  function RunPass(s: Settings, m: Machine, pass: nat, first: bool, approach: bool, mag: real, rate: real,
                   trace: seq<PollObs>): (r: PassRun)
    requires Valid(s)
    ensures 1 <= |r.runs| <= 2 && r.used <= |trace|
    ensures |r.runs| == 1 <==> !Continues(r.runs[0].end)
    ensures r.runs[|r.runs| - 1].end.Starved? ==> r.used == |trace|
  {
    var m0 := m.(bus := Bungard.SetLimitOverride(m.bus, !approach));
    var g0 := RunGroup(s, m0, pass, 0, approach, first, mag, rate, s.toMpos(m.position), 0, trace);
    if !Continues(g0.run.end) then PassRun(g0.m, [g0.run], g0.used)
    else
      var g1 := RunGroup(s, g0.m, pass, 1, approach, first, g0.mag, rate, g0.target, g0.run.lockOut, trace[g0.used..]);
      PassRun(g1.m, [g0.run, g1.run], g0.used + g1.used)
  }

  datatype Outcome = Completed | Aborted | Blocked | OutOfTrace

  /** The result of a homing call: how it ended, the final state, every group
      motion in order, and how many observations it read. */
  datatype Run = Run(outcome: Outcome, m: Machine, runs: seq<GroupRun>, used: nat)

  function Stopped(e: PollEnd): Outcome
  {
    if e.Failed? then Aborted else OutOfTrace
  }

  /** Normal completion: every axis at machine zero, the limit override on for
      normal operation, step control back to normal. */
  function Finish(m: Machine): (r: Machine)
    ensures r.position == [0, 0, 0]
    ensures r.bus.overrideFlag == Bungard.LIMIT_OVERRIDE
    ensures r.stepControl == NormalOp
    ensures r.effects == m.effects && r.abort == m.abort && r.axisLock == m.axisLock
    ensures r.bus.strobes == m.bus.strobes && r.bus.latch1 == m.bus.latch1 && r.bus.latch2 == m.bus.latch2
  {
    m.(position := [0, 0, 0], bus := Bungard.SetLimitOverride(m.bus, true), stepControl := NormalOp)
  }

  /** The travel of the next pass after a pass ends: pull-off times the locate
      scalar before an approach, the pull-off alone before a retreat. */
  function NextTravel(s: Settings, approach: bool): real
  {
    if approach then s.pulloff * LOCATE_SCALAR else s.pulloff
  }

  /** The rate of the next pass: the feed rate before an approach, the seek
      rate before a retreat. */
  function NextRate(s: Settings, approach: bool): real
  {
    if approach then s.feedRate else s.seekRate
  }

  /** The byte-wide initial value of the pass counter `n_cycle`. */
  function InitialCycle(s: Settings): nat
  {
    (2 * s.locateCycles + 1) % 256
  }

  /** `effects` ends with `tail`. */
  predicate EndsWith(effects: seq<Effect>, tail: seq<Effect>)
  {
    |tail| <= |effects| && effects[|effects| - |tail|..] == tail
  }

  /** A pass runs with the board's limit override on exactly while
      retreating, for every group of the pass, and leaves step control with
      the homing motion. */
  lemma RunPassState(s: Settings, m: Machine, pass: nat, first: bool, approach: bool, mag: real, rate: real,
                     trace: seq<PollObs>)
    requires Valid(s)
    ensures var r := RunPass(s, m, pass, first, approach, mag, rate, trace);
      var last := r.runs[|r.runs| - 1];
      && r.m.abort == m.abort
      && r.m.bus == Bungard.SetLimitOverride(m.bus, !approach)
      && r.runs[0].overrideFlag == r.m.bus.overrideFlag && last.overrideFlag == r.m.bus.overrideFlag
      && r.m.stepControl == ExecuteSysMotion
      && r.m.axisLock == last.lockOut
  {
  }

  /** A pass's effects end with those of its last group's poll. */
  lemma RunPassEnds(s: Settings, m: Machine, pass: nat, first: bool, approach: bool, mag: real, rate: real,
                    trace: seq<PollObs>)
    requires Valid(s)
    ensures PassEnds(RunPass(s, m, pass, first, approach, mag, rate, trace))
  {
  }

  /** Every axis of `group` is at position zero. */
  predicate Zeroed(position: Steps, group: nat)
  {
    forall j :: 0 <= j < N_AXIS && InGroup(group, j) ==> position[j] == 0
  }

  /** Where a pass leaves sys_position: every axis of its last group at zero,
      and, when only the Z group ran, X and Y where the pass found them. */
  lemma RunPassPosition(s: Settings, m: Machine, pass: nat, first: bool, approach: bool, mag: real, rate: real,
                        trace: seq<PollObs>)
    requires Valid(s)
    ensures var r := RunPass(s, m, pass, first, approach, mag, rate, trace);
      && Zeroed(r.m.position, r.runs[|r.runs| - 1].group)
      && (|r.runs| == 1 ==> r.m.position[X_AXIS] == m.position[X_AXIS] && r.m.position[Y_AXIS] == m.position[Y_AXIS])
  {
    var m0 := m.(bus := Bungard.SetLimitOverride(m.bus, !approach));
    var base := s.toMpos(m.position);
    var g0 := RunGroup(s, m0, pass, 0, approach, first, mag, rate, base, 0, trace);
    if Continues(g0.run.end) {
      var rest := trace[g0.used..];
      RunGroupAxis(s, g0.m, pass, 1, approach, first, g0.mag, rate, g0.target, g0.run.lockOut, rest, X_AXIS);
      RunGroupAxis(s, g0.m, pass, 1, approach, first, g0.mag, rate, g0.target, g0.run.lockOut, rest, Y_AXIS);
    } else {
      RunGroupAxis(s, m0, pass, 0, approach, first, mag, rate, base, 0, trace, X_AXIS);
      RunGroupAxis(s, m0, pass, 0, approach, first, mag, rate, base, 0, trace, Y_AXIS);
      RunGroupAxis(s, m0, pass, 0, approach, first, mag, rate, base, 0, trace, Z_AXIS);
    }
  }

  /** A pass's last group record agrees with the observations the pass read:
      a Z group that let the cycle continue read only calm observations. */
  lemma RunPassObs(s: Settings, m: Machine, pass: nat, first: bool, approach: bool, mag: real, rate: real,
                   trace: seq<PollObs>)
    requires Valid(s)
    ensures var r := RunPass(s, m, pass, first, approach, mag, rate, trace);
      Observed(trace, 0, r.used, r.runs[|r.runs| - 1])
  {
    var m0 := m.(bus := Bungard.SetLimitOverride(m.bus, !approach));
    var base := s.toMpos(m.position);
    RunGroupObs(s, m0, pass, 0, approach, first, mag, rate, base, 0, trace);
    var g0 := RunGroup(s, m0, pass, 0, approach, first, mag, rate, base, 0, trace);
    if Continues(g0.run.end) {
      var rest := trace[g0.used..];
      RunGroupObs(s, g0.m, pass, 1, approach, first, g0.mag, rate, g0.target, g0.run.lockOut, rest);
      var g1 := RunGroup(s, g0.m, pass, 1, approach, first, g0.mag, rate, g0.target, g0.run.lockOut, rest);
      ObservedPair(trace, g0.used, g0.run, g1.used, g1.run);
    }
  }

  // ---------------------------------------------------------------------------
  // The schedule

  /** Pass `pass` is the search pass: the first one, provided the byte-wide
      counter could hold its initial value (it cannot once N exceeds 127). */
  predicate Searching(s: Settings, pass: nat)
  {
    pass == 0 && InitialCycle(s) == 2 * s.locateCycles + 1
  }

  /** The travel carried into pass `pass`: nothing before the first pass,
      the pull-off before a retreat, pull-off times the locate scalar before
      a later approach. */
  function CarriedTravel(s: Settings, pass: nat): real
  {
    if pass == 0 then 0.0 else NextTravel(s, pass % 2 == 0)
  }

  /** The travel of axis `idx` in pass `pass`: the search range on the search
      pass, the carried travel otherwise. */
  function AxisTravel(s: Settings, pass: nat, idx: nat): real
    requires idx < N_AXIS
  {
    if Searching(s, pass) then -SEARCH_SCALAR * s.maxTravel[idx] else CarriedTravel(s, pass)
  }

  /** The rate of pass `pass`: the seek rate for the first pass and every
      retreat, the feed rate for later approaches. */
  function PassRate(s: Settings, pass: nat): real
  {
    if pass == 0 then s.seekRate else NextRate(s, pass % 2 == 0)
  }

  /** Group `group` of pass `pass` ran as the schedule says: passes alternate
      starting with an approach; the override is on exactly while retreating;
      the lock gained the group's step pins; each axis of the group was aimed
      at the pass's travel for that axis. */
  predicate Planned(s: Settings, run: GroupRun, pass: nat, group: nat)
    requires Valid(s)
  {
    && run.pass == pass && run.group == group
    && run.approach == (pass % 2 == 0)
    && run.rate == PassRate(s, pass)
    && run.overrideFlag == (if run.approach then 0 else Bungard.LIMIT_OVERRIDE)
    && run.lock == Or(run.lockIn, GroupPins(s, group))
    && (group == 1 && run.approach && Continues(run.end) ==> run.end.LockCleared?)
    && if group == 0 then Aimed(run.approach, Z_AXIS, AxisTravel(s, pass, Z_AXIS), run.target[Z_AXIS])
       else
         && Aimed(run.approach, X_AXIS, AxisTravel(s, pass, X_AXIS), run.target[X_AXIS])
         && Aimed(run.approach, Y_AXIS, AxisTravel(s, pass, Y_AXIS), run.target[Y_AXIS])
  }

  /** The run at index `j` continues its pass: the lock starts empty for the
      Z group; the X/Y group starts from the lock the Z group left and keeps
      the Z target the Z group planned. */
  predicate Linked(runs: seq<GroupRun>, j: nat)
    requires j < |runs|
  {
    if j % 2 == 0 then runs[j].lockIn == 0
    else runs[j].lockIn == runs[j - 1].lockOut && runs[j].target[Z_AXIS] == runs[j - 1].target[Z_AXIS]
  }

  /** A group follows the schedule when it is given its pass's direction,
      rate and travel and the board's override is set for its direction. */
  lemma RunGroupPlanned(s: Settings, m: Machine, pass: nat, group: nat, approach: bool, first: bool,
                        mag: real, rate: real, base: Vec, lockIn: bv8, trace: seq<PollObs>)
    requires Valid(s)
    requires first == Searching(s, pass) && (!first ==> mag == CarriedTravel(s, pass))
    requires approach == (pass % 2 == 0) && rate == PassRate(s, pass)
    requires m.bus.overrideFlag == if approach then 0 else Bungard.LIMIT_OVERRIDE
    ensures Planned(s, RunGroup(s, m, pass, group, approach, first, mag, rate, base, lockIn, trace).run, pass, group)
  {
    RunGroupAxis(s, m, pass, group, approach, first, mag, rate, base, lockIn, trace, X_AXIS);
    RunGroupAxis(s, m, pass, group, approach, first, mag, rate, base, lockIn, trace, Y_AXIS);
    RunGroupAxis(s, m, pass, group, approach, first, mag, rate, base, lockIn, trace, Z_AXIS);
  }

  /** One pass follows the schedule, given the loop-carried values the pass
      loop hands it. */
  lemma RunPassPlanned(s: Settings, m: Machine, pass: nat, first: bool, approach: bool, mag: real, rate: real,
                       trace: seq<PollObs>)
    requires Valid(s)
    requires first == Searching(s, pass)
    requires approach == (pass % 2 == 0) && rate == PassRate(s, pass) && mag == CarriedTravel(s, pass)
    ensures var r := RunPass(s, m, pass, first, approach, mag, rate, trace);
      && Planned(s, r.runs[0], pass, 0) && Linked(r.runs, 0)
      && (|r.runs| == 2 ==> Planned(s, r.runs[1], pass, 1) && Linked(r.runs, 1))
  {
    var m0 := m.(bus := Bungard.SetLimitOverride(m.bus, !approach));
    var base := s.toMpos(m.position);
    RunGroupPlanned(s, m0, pass, 0, approach, first, mag, rate, base, 0, trace);
    var g0 := RunGroup(s, m0, pass, 0, approach, first, mag, rate, base, 0, trace);
    if Continues(g0.run.end) {
      var rest := trace[g0.used..];
      RunGroupPlanned(s, g0.m, pass, 1, approach, first, g0.mag, rate, g0.target, g0.run.lockOut, rest);
      RunGroupAxis(s, g0.m, pass, 1, approach, first, g0.mag, rate, g0.target, g0.run.lockOut, rest, Z_AXIS);
    }
  }

  /** The run at index `j` is group `j % 2` of pass `j / 2`, as planned and
      linked to the group before it. */
  predicate Scheduled(s: Settings, runs: seq<GroupRun>, j: nat)
    requires Valid(s) && j < |runs|
  {
    Planned(s, runs[j], j / 2, j % 2) && Linked(runs, j)
  }

  /** Every group motion so far followed the schedule. */
  ghost predicate OnSchedule(s: Settings, runs: seq<GroupRun>)
    requires Valid(s)
  {
    forall j :: 0 <= j < |runs| ==> Scheduled(s, runs, j)
  }

  /** No group motion among `runs` stopped the cycle. */
  ghost predicate AllContinue(runs: seq<GroupRun>, n: int)
  {
    forall j :: 0 <= j < n && j < |runs| ==> Continues(runs[j].end)
  }

  /** Appending the runs of pass `pass` to the runs of the passes before it
      keeps the log on schedule. */
  lemma ScheduleExtend(s: Settings, runs: seq<GroupRun>, more: seq<GroupRun>, pass: nat)
    requires Valid(s) && OnSchedule(s, runs) && |runs| == 2 * pass
    requires 1 <= |more| <= 2
    requires Planned(s, more[0], pass, 0) && Linked(more, 0)
    requires |more| == 2 ==> Planned(s, more[1], pass, 1) && Linked(more, 1)
    ensures OnSchedule(s, runs + more)
  {
    var all := runs + more;
    forall j | 0 <= j < |all|
      ensures Scheduled(s, all, j)
    {
      if j >= |runs| {
        var k := j - |runs|;
        assert all[j] == more[k];
        assert j / 2 == pass && j % 2 == k;
        if k == 1 {
          assert all[j - 1] == more[0];
        }
      } else {
        assert Scheduled(s, runs, j);
        assert all[j] == runs[j];
        if j % 2 == 1 {
          assert all[j - 1] == runs[j - 1];
        }
      }
    }
  }

  /** Appending a pass whose first group let the cycle continue: every run
      before the new last one continued, and all of them did when the new
      last one did too. */
  lemma ContinueExtend(runs: seq<GroupRun>, more: seq<GroupRun>)
    requires AllContinue(runs, |runs|) && 1 <= |more| <= 2
    requires |more| == 2 ==> Continues(more[0].end)
    ensures (runs + more)[|runs + more| - 1] == more[|more| - 1]
    ensures AllContinue(runs + more, |runs + more| - 1)
    ensures Continues(more[|more| - 1].end) ==> AllContinue(runs + more, |runs + more|)
  {
    var all := runs + more;
    forall j | 0 <= j < |all| - 1
      ensures Continues(all[j].end)
    {
      if j < |runs| {
        assert all[j] == runs[j];
      } else {
        assert all[j] == more[0];
      }
    }
  }

  /** The loop-carried values after a pass that did not stop the cycle are
      those of the next pass: the direction flips, and travel and rate are
      taken for the new direction. */
  lemma NextPass(s: Settings, pass: nat)
    ensures ((pass + 1) % 2 == 0) == (pass % 2 != 0)
    ensures PassRate(s, pass + 1) == NextRate(s, pass % 2 != 0)
    ensures CarriedTravel(s, pass + 1) == NextTravel(s, pass % 2 != 0)
  {
  }

  /** The pass the do/while runs from cursor `c`: the search pass is the one
      that still sees the counter at 2*N+1, and the pass reads the
      observations from the cursor's position in `trace` on. */
  function PassOf(s: Settings, c: Cursor, trace: seq<PollObs>): PassRun
    requires Valid(s) && c.used <= |trace|
  {
    RunPass(s, c.m, c.pass, c.nCycle == 2 * s.locateCycles + 1, c.approach, c.mag, c.rate, trace[c.used..])
  }

  /** The machine after a pass: the abort flag, bus log and latches are those
      homing started with, the override is set for the pass's direction, as
      its last group ran, and step control is system motion. */
  ghost predicate PassMachine(m: Machine, c: Cursor, p: PassRun)
  {
    && |p.runs| > 0
    && p.m.abort == m.abort
    && p.m.bus.strobes == m.bus.strobes && p.m.bus.latch1 == m.bus.latch1 && p.m.bus.latch2 == m.bus.latch2
    && p.m.bus.overrideFlag == (if c.approach then 0 else Bungard.LIMIT_OVERRIDE)
    && p.m.stepControl == ExecuteSysMotion
    && p.runs[|p.runs| - 1].overrideFlag == p.m.bus.overrideFlag
  }

  /** The effects after a pass end with those of its last group's poll: an
      aborted group's alarms, a reset and an executor run. */
  ghost predicate PassEnds(p: PassRun)
  {
    |p.runs| > 0 && EndsWith(p.m.effects, PollEffects(p.runs[|p.runs| - 1].end))
  }

  /** The positions after a pass: the last group zeroed its axes, and X and
      Y stay where homing found them when only the very first group ran. */
  ghost predicate PassPosition(m: Machine, c: Cursor, p: PassRun)
  {
    && |p.runs| > 0
    && Zeroed(p.m.position, p.runs[|p.runs| - 1].group)
    && (|c.runs + p.runs| == 1 ==>
          p.m.position[X_AXIS] == m.position[X_AXIS] && p.m.position[Y_AXIS] == m.position[Y_AXIS])
  }

  /** The log after a pass: its group records appended to the earlier ones
      stay on schedule, every group but the last let the cycle continue, and
      a pass that let it continue logged both of its groups. */
  ghost predicate PassLogged(s: Settings, c: Cursor, p: PassRun)
    requires Valid(s)
  {
    && 1 <= |p.runs| <= 2
    && (|p.runs| == 1 <==> !Continues(p.runs[0].end))
    && var all := c.runs + p.runs;
      && all[|all| - 1] == p.runs[|p.runs| - 1]
      && OnSchedule(s, all)
      && AllContinue(all, |all| - 1)
      && (Continues(p.runs[|p.runs| - 1].end) ==> |all| == 2 * c.pass + 2 && AllContinue(all, |all|))
  }

  /** The observations after a pass: the pass read them from the cursor on,
      all of the rest when it ran out, and its last group agrees with what
      was read since homing began. */
  ghost predicate PassRead(trace: seq<PollObs>, c: Cursor, p: PassRun)
  {
    && |p.runs| > 0 && c.used + p.used <= |trace|
    && (p.runs[|p.runs| - 1].end.Starved? ==> c.used + p.used == |trace|)
    && Observed(trace, 0, c.used + p.used, p.runs[|p.runs| - 1])
  }

  /** Everything the cycle relies on about one pass. */
  ghost predicate PassDone(s: Settings, m: Machine, trace: seq<PollObs>, c: Cursor, p: PassRun)
    requires Valid(s)
  {
    PassMachine(m, c, p) && PassEnds(p) && PassPosition(m, c, p) && PassLogged(s, c, p) && PassRead(trace, c, p)
  }

  lemma PassOfMachine(s: Settings, m: Machine, trace: seq<PollObs>, c: Cursor)
    requires Valid(s) && c.used <= |trace| && c.m.abort == m.abort
    requires c.m.bus.strobes == m.bus.strobes && c.m.bus.latch1 == m.bus.latch1 && c.m.bus.latch2 == m.bus.latch2
    ensures PassMachine(m, c, PassOf(s, c, trace))
  {
    RunPassState(s, c.m, c.pass, c.nCycle == 2 * s.locateCycles + 1, c.approach, c.mag, c.rate, trace[c.used..]);
  }

  lemma PassOfEnds(s: Settings, trace: seq<PollObs>, c: Cursor)
    requires Valid(s) && c.used <= |trace|
    ensures PassEnds(PassOf(s, c, trace))
  {
    RunPassEnds(s, c.m, c.pass, c.nCycle == 2 * s.locateCycles + 1, c.approach, c.mag, c.rate, trace[c.used..]);
  }

  lemma PassOfPosition(s: Settings, m: Machine, trace: seq<PollObs>, c: Cursor)
    requires Valid(s) && c.used <= |trace|
    requires |c.runs| == 2 * c.pass && (c.pass == 0 ==> c.m.position == m.position)
    ensures PassPosition(m, c, PassOf(s, c, trace))
  {
    var p := PassOf(s, c, trace);
    assert p == RunPass(s, c.m, c.pass, c.nCycle == 2 * s.locateCycles + 1, c.approach, c.mag, c.rate, trace[c.used..]);
    RunPassPosition(s, c.m, c.pass, c.nCycle == 2 * s.locateCycles + 1, c.approach, c.mag, c.rate, trace[c.used..]);
    if |c.runs + p.runs| == 1 {
      assert c.m.position == m.position;
    }
  }

  lemma PassOfLogged(s: Settings, trace: seq<PollObs>, c: Cursor)
    requires Valid(s) && c.used <= |trace| && c.pass + c.nCycle == InitialCycle(s)
    requires c.approach == (c.pass % 2 == 0) && c.rate == PassRate(s, c.pass) && c.mag == CarriedTravel(s, c.pass)
    requires OnSchedule(s, c.runs) && |c.runs| == 2 * c.pass && AllContinue(c.runs, |c.runs|)
    ensures PassLogged(s, c, PassOf(s, c, trace))
  {
    var p := PassOf(s, c, trace);
    assert p == RunPass(s, c.m, c.pass, c.nCycle == 2 * s.locateCycles + 1, c.approach, c.mag, c.rate, trace[c.used..]);
    SearchPassFirst(s, c.pass, c.nCycle);
    RunPassPlanned(s, c.m, c.pass, c.nCycle == 2 * s.locateCycles + 1, c.approach, c.mag, c.rate, trace[c.used..]);
    ScheduleExtend(s, c.runs, p.runs, c.pass);
    ContinueExtend(c.runs, p.runs);
  }

  lemma PassOfRead(s: Settings, trace: seq<PollObs>, c: Cursor)
    requires Valid(s) && c.used <= |trace| && Undisturbed(trace, 0, c.used)
    ensures PassRead(trace, c, PassOf(s, c, trace))
  {
    var p := PassOf(s, c, trace);
    assert p == RunPass(s, c.m, c.pass, c.nCycle == 2 * s.locateCycles + 1, c.approach, c.mag, c.rate, trace[c.used..]);
    RunPassObs(s, c.m, c.pass, c.nCycle == 2 * s.locateCycles + 1, c.approach, c.mag, c.rate, trace[c.used..]);
    ReadAfter(trace, c, p);
  }

  /** A pass that read its observations from the cursor on, as the pass
      itself sees them, read them as the cycle sees them. */
  lemma ReadAfter(trace: seq<PollObs>, c: Cursor, p: PassRun)
    requires c.used <= |trace| && Undisturbed(trace, 0, c.used)
    requires |p.runs| > 0 && p.used <= |trace| - c.used
    requires p.runs[|p.runs| - 1].end.Starved? ==> p.used == |trace| - c.used
    requires Observed(trace[c.used..], 0, p.used, p.runs[|p.runs| - 1])
    ensures PassRead(trace, c, p)
  {
    ObservedAfter(trace, c.used, p.used, p.runs[|p.runs| - 1]);
  }

  /** The counter still holds 2*N+1 exactly on the search pass. */
  lemma SearchPassFirst(s: Settings, pass: nat, nCycle: nat)
    requires pass + nCycle == InitialCycle(s)
    ensures (nCycle == 2 * s.locateCycles + 1) == Searching(s, pass)
  {
  }

  /** One pass of the do/while, as the cycle sees it. */
  method HomingPass(s: Settings, m: Machine, trace: seq<PollObs>, c: Cursor) returns (p: PassRun)
    requires Valid(s) && OnTrack(s, m, trace, c)
    ensures PassDone(s, m, trace, c, p)
  {
    p := PassOf(s, c, trace);
    PassOfMachine(s, m, trace, c);
    PassOfEnds(s, trace, c);
    PassOfPosition(s, m, trace, c);
    PassOfLogged(s, trace, c);
    PassOfRead(s, trace, c);
  }

  // ---------------------------------------------------------------------------
  // The homing cycle

  /** What a homing call that was not blocked by a pending abort guarantees:
      it ran at least one group motion and read no more observations than it
      was given; it left the abort flag, the bus log and the latches alone;
      every group motion followed the schedule and all but the last let the
      cycle continue, an X/Y approach doing so only by finding its switches;
      every observation it read was calm (no reset, no door event, no cycle
      stop with an alarm pending), except the very last one of an aborted
      cycle, whose exit test is the one that aborted it. A completed cycle ran all n_cycle+1 passes, two
      group motions each, the last of them a retreat, and ends with homing's
      write of machine zero, the override back on and step control normal;
      an aborted one ends with its last group's failure, with the override
      as that group left it, homing's last write having zeroed that group's
      axes and, when it was the very first group motion, left X and Y where
      they started; a cycle that ran out of observations stopped in a wait
      loop that had read them all. */
  ghost predicate Homed(s: Settings, m: Machine, trace: seq<PollObs>, r: Run)
    requires Valid(s)
  {
    && r.outcome != Blocked && |r.runs| > 0 && r.used <= |trace|
    && Observed(trace, 0, r.used, r.runs[|r.runs| - 1])
    && r.m.abort == m.abort
    && r.m.bus.strobes == m.bus.strobes && r.m.bus.latch1 == m.bus.latch1 && r.m.bus.latch2 == m.bus.latch2
    && OnSchedule(s, r.runs)
    && AllContinue(r.runs, |r.runs| - 1)
    && (r.outcome == Completed ==>
          && |r.runs| == 2 * (InitialCycle(s) + 1)
          && Continues(r.runs[|r.runs| - 1].end)
          && !r.runs[|r.runs| - 1].approach
          && r.m.position == [0, 0, 0]
          && r.m.bus.overrideFlag == Bungard.LIMIT_OVERRIDE
          && r.m.stepControl == NormalOp)
    && (r.outcome == Aborted ==>
          var last := r.runs[|r.runs| - 1];
          && last.end.Failed?
          && r.m.stepControl == ExecuteSysMotion
          && r.m.bus.overrideFlag == last.overrideFlag
          && Zeroed(r.m.position, last.group)
          && (|r.runs| == 1 ==> r.m.position[X_AXIS] == m.position[X_AXIS] && r.m.position[Y_AXIS] == m.position[Y_AXIS])
          && EndsWith(r.m.effects, Raise(last.end.raised) + [SystemReset, ExecuteRealtime]))
    && (r.outcome == OutOfTrace ==> r.runs[|r.runs| - 1].end.Starved? && r.used == |trace|)
  }

  /** A reset, a safety-door event or a cycle stop with an alarm pending,
      seen during homing, aborts it on that very observation, with the reset
      or door failure among the codes raised; so a cycle that completed, or
      ran out of observations, saw none of them. */
  lemma DisturbanceAborts(s: Settings, m: Machine, trace: seq<PollObs>, r: Run, k: nat)
    requires Valid(s) && Homed(s, m, trace, r)
    requires k < r.used && (trace[k].reset || trace[k].door || (trace[k].cycleStop && trace[k].alarmPending))
    ensures r.outcome == Aborted && k == r.used - 1
    ensures var last := r.runs[|r.runs| - 1];
      && last.end.Failed?
      && (trace[k].reset ==> HomingFailReset in last.end.raised)
      && (trace[k].door ==> HomingFailDoor in last.end.raised)
  {
    assert !Calm(trace[k]);
  }

  /** In a completed cycle every X/Y approach ended by finding its switches:
      a cycle stop there would have raised the approach failure instead. */
  lemma ApproachFoundSwitches(s: Settings, m: Machine, trace: seq<PollObs>, r: Run, j: nat)
    requires Valid(s) && Homed(s, m, trace, r) && r.outcome == Completed
    requires j < |r.runs| && r.runs[j].group == 1 && r.runs[j].approach
    ensures r.runs[j].end.LockCleared?
  {
    assert Scheduled(s, r.runs, j);
    if j < |r.runs| - 1 {
      assert Continues(r.runs[j].end);
    }
  }

  /** The cycle's exit after a group motion that stopped it. */
  lemma StoppedHomed(s: Settings, m: Machine, trace: seq<PollObs>, mEnd: Machine, runs: seq<GroupRun>, used: nat)
    requires Valid(s) && |runs| > 0 && used <= |trace|
    requires var last := runs[|runs| - 1];
      && !Continues(last.end) && (last.end.Starved? ==> used == |trace|)
      && mEnd.stepControl == ExecuteSysMotion && mEnd.bus.overrideFlag == last.overrideFlag
      && Zeroed(mEnd.position, last.group)
      && (|runs| == 1 ==> mEnd.position[X_AXIS] == m.position[X_AXIS] && mEnd.position[Y_AXIS] == m.position[Y_AXIS])
      && (last.end.Failed? ==> EndsWith(mEnd.effects, Raise(last.end.raised) + [SystemReset, ExecuteRealtime]))
    requires mEnd.abort == m.abort
    requires mEnd.bus.strobes == m.bus.strobes && mEnd.bus.latch1 == m.bus.latch1 && mEnd.bus.latch2 == m.bus.latch2
    requires OnSchedule(s, runs) && AllContinue(runs, |runs| - 1)
    requires Observed(trace, 0, used, runs[|runs| - 1])
    ensures Homed(s, m, trace, Run(Stopped(runs[|runs| - 1].end), mEnd, runs, used))
  {
  }

  /** The cycle's exit after its last pass. */
  lemma CompletedHomed(s: Settings, m: Machine, trace: seq<PollObs>, mEnd: Machine, runs: seq<GroupRun>, used: nat)
    requires Valid(s) && |runs| == 2 * (InitialCycle(s) + 1) && used <= |trace|
    requires mEnd.abort == m.abort
    requires mEnd.bus.strobes == m.bus.strobes && mEnd.bus.latch1 == m.bus.latch1 && mEnd.bus.latch2 == m.bus.latch2
    requires OnSchedule(s, runs) && AllContinue(runs, |runs|)
    requires Observed(trace, 0, used, runs[|runs| - 1])
    ensures Homed(s, m, trace, Run(Completed, Finish(mEnd), runs, used))
  {
    OddCycleCount(s);
    assert Scheduled(s, runs, |runs| - 1);
  }

  /** The pass counter starts odd, whatever the byte truncation does, so the
      cycle runs an even number of passes and ends on a retreat. */
  lemma OddCycleCount(s: Settings)
    ensures InitialCycle(s) % 2 == 1
  {
    var n := 2 * s.locateCycles + 1;
    assert n == 256 * (n / 256) + InitialCycle(s);
  }

  /** The do/while's variables between passes: the byte-wide pass counter
      `n_cycle`, how many passes ran, the direction, travel and rate of the
      next pass, the machine, and the log and trace position so far. */
  datatype Cursor = Cursor(nCycle: nat, pass: nat, approach: bool, mag: real, rate: real, m: Machine,
                           runs: seq<GroupRun>, used: nat)

  /** The do/while's invariant: the counter and pass number add up to the
      counter's initial value, each pass logged both of its groups, the
      carried values are those of the next pass, the abort flag, bus log and
      latches are as they were, and the log is on schedule with every group
      letting the cycle continue. */
  ghost predicate OnTrack(s: Settings, m: Machine, trace: seq<PollObs>, c: Cursor)
    requires Valid(s)
  {
    && c.pass + c.nCycle == InitialCycle(s) && |c.runs| == 2 * c.pass && c.used <= |trace|
    && c.approach == (c.pass % 2 == 0) && c.rate == PassRate(s, c.pass) && c.mag == CarriedTravel(s, c.pass)
    && c.m.abort == m.abort && (c.pass == 0 ==> c.m.position == m.position)
    && c.m.bus.strobes == m.bus.strobes && c.m.bus.latch1 == m.bus.latch1 && c.m.bus.latch2 == m.bus.latch2
    && OnSchedule(s, c.runs) && AllContinue(c.runs, |c.runs|)
    && Undisturbed(trace, 0, c.used)
  }

  /** What one turn of the do/while leads to: another pass, or the end. */
  datatype Turn = Again(next: Cursor) | Ended(r: Run)

  /** The cursor for the pass after `p`: counter decremented, direction
      reversed, travel and rate taken for the new direction, the settle
      delay logged. */
  function NextCursor(s: Settings, c: Cursor, p: PassRun): Cursor
    requires c.nCycle > 0
  {
    var approach := !c.approach;
    Cursor(c.nCycle - 1, c.pass + 1, approach, NextTravel(s, approach), NextRate(s, approach),
           p.m.(effects := p.m.effects + [Settle]), c.runs + p.runs, c.used + p.used)
  }

  /** After a pass that stopped the cycle, homing ends with the homing
      guarantee. */
  lemma TurnStopped(s: Settings, m: Machine, trace: seq<PollObs>, c: Cursor, p: PassRun)
    requires Valid(s) && OnTrack(s, m, trace, c) && PassDone(s, m, trace, c, p)
    requires !Continues(p.runs[|p.runs| - 1].end)
    ensures Homed(s, m, trace, Run(Stopped(p.runs[|p.runs| - 1].end), p.m, c.runs + p.runs, c.used + p.used))
  {
    StoppedHomed(s, m, trace, p.m, c.runs + p.runs, c.used + p.used);
  }

  /** After the last pass, homing completes with the homing guarantee. */
  lemma TurnCompleted(s: Settings, m: Machine, trace: seq<PollObs>, c: Cursor, p: PassRun)
    requires Valid(s) && OnTrack(s, m, trace, c) && PassDone(s, m, trace, c, p)
    requires Continues(p.runs[|p.runs| - 1].end) && c.nCycle == 0
    ensures Homed(s, m, trace, Run(Completed, Finish(p.m.(effects := p.m.effects + [Settle])), c.runs + p.runs, c.used + p.used))
  {
    CompletedHomed(s, m, trace, p.m.(effects := p.m.effects + [Settle]), c.runs + p.runs, c.used + p.used);
  }

  /** After any other pass that let the cycle continue, the loop invariant
      holds for the next pass with a smaller counter. */
  lemma TurnAgain(s: Settings, m: Machine, trace: seq<PollObs>, c: Cursor, p: PassRun)
    requires Valid(s) && OnTrack(s, m, trace, c) && PassDone(s, m, trace, c, p)
    requires Continues(p.runs[|p.runs| - 1].end) && c.nCycle > 0
    ensures OnTrack(s, m, trace, NextCursor(s, c, p))
  {
    ContinuedUndisturbed(trace, c.used + p.used, p.runs[|p.runs| - 1]);
    NextPass(s, c.pass);
  }

  /** One turn of the do/while of limits_go_home: run the pass; after one
      that did not stop the cycle, settle, reverse direction and take the
      next travel and rate; then test the counter and decrement it. */
  method CycleTurn(s: Settings, m: Machine, trace: seq<PollObs>, c: Cursor) returns (t: Turn)
    requires Valid(s) && OnTrack(s, m, trace, c)
    ensures t.Again? ==> OnTrack(s, m, trace, t.next) && t.next.nCycle < c.nCycle
    ensures t.Ended? ==> Homed(s, m, trace, t.r)
  {
    var p := HomingPass(s, m, trace, c);
    if !Continues(p.runs[|p.runs| - 1].end) {
      TurnStopped(s, m, trace, c, p);
      return Ended(Run(Stopped(p.runs[|p.runs| - 1].end), p.m, c.runs + p.runs, c.used + p.used));
    }
    if c.nCycle == 0 {
      TurnCompleted(s, m, trace, c, p);
      return Ended(Run(Completed, Finish(p.m.(effects := p.m.effects + [Settle])), c.runs + p.runs, c.used + p.used));
    }
    TurnAgain(s, m, trace, c, p);
    return Again(NextCursor(s, c, p));
  }

  /** limits_go_home. Nothing happens when an abort is pending. Otherwise the
      do/while runs passes, starting with an approach at the seek rate, until
      one stops the cycle or the counter runs out. */
  method GoHome(s: Settings, m: Machine, trace: seq<PollObs>) returns (r: Run)
    requires Valid(s)
    ensures m.abort ==> r == Run(Blocked, m, [], 0)
    ensures !m.abort ==> Homed(s, m, trace, r)
  {
    if m.abort {
      return Run(Blocked, m, [], 0);
    }
    var c := Cursor(InitialCycle(s), 0, true, 0.0, s.seekRate, m, [], 0);
    while true
      invariant OnTrack(s, m, trace, c)
      decreases c.nCycle
    {
      var t := CycleTurn(s, m, trace, c);
      if t.Ended? {
        return t.r;
      }
      c := t.next;
    }
  }
}

=== FILE: limits.dfy ===
/** Limit switches: reading and normalising the pins, the hard-limit
    interrupt in its immediate and debounced builds, and the soft-limit check
    made before a motion is queued. Each interrupt is one atomic transition. */
module Limits {
  import opened System

  /** Build options and settings that shape limit handling. */
  datatype LimitConfig = LimitConfig(
    limitMask: bv8,        // LIMIT_MASK: the limit inputs of the port
    invertMask: bv8,       // INVERT_LIMIT_PIN_MASK, or 0 when not defined
    limitPin: seq<bv8>,    // get_limit_pin_mask(idx) for each axis
    invertPins: bool,      // settings flag BITFLAG_INVERT_LIMIT_PINS
    hardLimitEnable: bool) // settings flag BITFLAG_HARD_LIMIT_ENABLE

  predicate Valid(c: LimitConfig)
  {
    |c.limitPin| == N_AXIS
  }

  /** The limit inputs after both inversions: the hardware mask first, then
      the whole limit mask unless the settings ask for inverted pins (with
      inverted pins a high input is a triggered switch, without them a low one).
      Both are exclusive-ors, so the order does not change the result. */
  function NormalisedPins(c: LimitConfig, raw: bv8): (pin: bv8)
    ensures pin == ((raw & c.limitMask) ^ (if c.invertPins then 0 else c.limitMask)) ^ c.invertMask
    ensures pin & !(c.limitMask | c.invertMask) == 0
  {
    var pin := (raw & c.limitMask) ^ c.invertMask;
    if !c.invertPins then pin ^ c.limitMask else pin
  }

  /** Bit `j` of a limit state is set: axis `j` reads triggered. */
  predicate Has(state: bv8, j: nat)
    requires j < N_AXIS
  {
    state & Bit(j) != 0
  }

  /** Some input of `mask` is active in `pin`. */
  predicate Hit(pin: bv8, mask: bv8)
  {
    pin & mask != 0
  }

  /** Nothing is set at or above bit N_AXIS. */
  predicate AxesOnly(state: bv8)
  {
    state & !0x07 == 0
  }

  /** Bits `idx` .. N_AXIS-1 of the limit state: bit j is set when axis j's
      pin is triggered in `pin`. */
  function AxisBits(c: LimitConfig, pin: bv8, idx: nat): (r: bv8)
    requires Valid(c) && idx <= N_AXIS
    ensures forall j :: 0 <= j < N_AXIS ==> (Has(r, j) <==> idx <= j && Hit(pin, c.limitPin[j]))
    ensures AxesOnly(r)
    decreases N_AXIS - idx
  {
    if idx == N_AXIS then 0
    else
      var hit := Hit(pin, c.limitPin[idx]);
      var own: bv8 := if hit then Bit(idx) else 0;
      var rest := AxisBits(c, pin, idx + 1);
      AddAxisBit(own, rest, idx, hit);
      own | rest
  }

  /** Setting axis `idx`'s bit, or not, in a state of axis bits: the other
      axes keep their bits and nothing appears above the axes. */
  lemma AddAxisBit(own: bv8, rest: bv8, idx: nat, hit: bool)
    requires idx < N_AXIS && own == (if hit then Bit(idx) else 0) && AxesOnly(rest)
    ensures forall j :: 0 <= j < N_AXIS ==> (Has(own | rest, j) <==> (j == idx && hit) || Has(rest, j))
    ensures AxesOnly(own | rest)
  {
    forall j | 0 <= j < N_AXIS
      ensures Has(own | rest, j) <==> (j == idx && hit) || Has(rest, j)
    {
      assert Bit(j) == if j == 0 then 0x01 else if j == 1 then 0x02 else 0x04;
    }
  }

  /** limits_get_state: one bit per axis, set exactly when that axis's switch
      is triggered, and nothing at or above bit N_AXIS. */
  function GetState(c: LimitConfig, raw: bv8): (state: bv8)
    requires Valid(c)
    ensures forall idx :: 0 <= idx < N_AXIS ==> (Has(state, idx) <==> Hit(NormalisedPins(c, raw), c.limitPin[idx]))
    ensures AxesOnly(state)
  {
    var pin := NormalisedPins(c, raw);
    if pin != 0 then AxisBits(c, pin, 0) else 0
  }

  /** The two inversions compose: with hardware invert mask 0b100, default
      polarity (a low input is a pressed switch) and raw input 0b100, every
      limit input reads triggered, bit 2 because its hardware inversion makes
      high mean pressed, the others because they are low. */
  lemma DoubleInversion(c: LimitConfig)
    requires c.invertMask == 0x04 && !c.invertPins && c.limitMask & 0x04 != 0
    ensures NormalisedPins(c, 0x04) == c.limitMask
  {
  }

  // ---------------------------------------------------------------------------
  // Hard limits

  /** Which hard-limit interrupt routine the firmware was built with. */
  datatype Strategy = Immediate(forceStateCheck: bool) | Debounced

  /** Interrupt enables: the limit pin-change interrupt and the watchdog
      interrupt the debounced build uses as its one-shot timer. */
  datatype Interrupts = Interrupts(pinChange: bool, watchdog: bool)

  /** What an interrupt routine sees of the system. */
  datatype Snapshot = Snapshot(state: SysState, alarmPending: bool, raw: bv8)

  /** An interrupt's outcome: the new enables and the effects it issued. */
  datatype Reaction = Reaction(irq: Interrupts, effects: seq<Effect>)

  /** Kill all motion, then record a hard-limit alarm. */
  const TRIP: seq<Effect> := [SystemReset, RaiseAlarm(HardLimit)]

  /** limits_init: arm the pin-change interrupt exactly when hard limits are
      enabled (limits_disable otherwise). The debounced build then rewrites
      the watchdog control register with the time-out bits alone, which
      leaves the watchdog interrupt disabled; the immediate build does not
      touch the watchdog. */
  function Init(c: LimitConfig, strategy: Strategy, irq: Interrupts): (r: Interrupts)
    ensures r.pinChange <==> c.hardLimitEnable
    ensures strategy.Debounced? ==> !r.watchdog
    ensures strategy.Immediate? ==> r.watchdog == irq.watchdog
  {
    var armed := if c.hardLimitEnable then irq.(pinChange := true) else Disable(irq);
    if strategy.Debounced? then armed.(watchdog := false) else armed
  }

  /** limits_disable. */
  function Disable(irq: Interrupts): (r: Interrupts)
    ensures !r.pinChange && r.watchdog == irq.watchdog
  {
    irq.(pinChange := false)
  }

  /** The immediate routine: trip unless already in alarm or an alarm is
      pending, and, when built to check, only if a switch reads triggered. */
  function ImmediateTrip(c: LimitConfig, forceStateCheck: bool, s: Snapshot): (effects: seq<Effect>)
    requires Valid(c)
    ensures effects == [] || effects == TRIP
    ensures effects == TRIP <==>
      s.state != Alarm && !s.alarmPending && (forceStateCheck ==> GetState(c, s.raw) != 0)
  {
    if s.state != Alarm then
      if !s.alarmPending then
        if forceStateCheck then (if GetState(c, s.raw) != 0 then TRIP else [])
        else TRIP
      else []
    else []
  }

  /** A change on a limit input. Nothing happens while the interrupt is
      disabled; the immediate build reacts at once; the debounced build only
      arms the timer, which stays armed if it already was. */
  function PinChange(c: LimitConfig, strategy: Strategy, irq: Interrupts, s: Snapshot): (r: Reaction)
    requires Valid(c)
    ensures !irq.pinChange ==> r == Reaction(irq, [])
    ensures irq.pinChange && strategy.Debounced? ==> r == Reaction(irq.(watchdog := true), [])
    ensures irq.pinChange && strategy.Immediate? ==>
      && r.irq == irq
      && (r.effects == TRIP <==>
            s.state != Alarm && !s.alarmPending && (strategy.forceStateCheck ==> GetState(c, s.raw) != 0))
    ensures r.effects == [] || r.effects == TRIP
  {
    if !irq.pinChange then Reaction(irq, [])
    else
      match strategy
      case Immediate(force) => Reaction(irq, ImmediateTrip(c, force, s))
      case Debounced =>
        if !irq.watchdog then Reaction(irq.(watchdog := true), []) else Reaction(irq, [])
  }

  /** The debounce timer expiring: disarm it, then trip under the same guard
      as the immediate routine, and only if a switch still reads triggered. */
  function WatchdogTimeout(c: LimitConfig, irq: Interrupts, s: Snapshot): (r: Reaction)
    requires Valid(c)
    ensures !irq.watchdog ==> r == Reaction(irq, [])
    ensures irq.watchdog ==> !r.irq.watchdog && r.irq.pinChange == irq.pinChange
    ensures r.effects == [] || r.effects == TRIP
    ensures r.effects == TRIP <==>
      irq.watchdog && s.state != Alarm && !s.alarmPending && GetState(c, s.raw) != 0
  {
    if !irq.watchdog then Reaction(irq, [])
    else Reaction(irq.(watchdog := false), ImmediateTrip(c, true, s))
  }

  /** With hard limits disabled in the settings, no limit event, debounced
      or not, ever trips the machine: a pin change after initialisation does
      nothing, and in the debounced build, the only one with a watchdog
      routine, the timer is never armed, so its expiry does nothing either. */
  lemma DisabledHardLimitsNeverTrip(c: LimitConfig, strategy: Strategy, irq: Interrupts, s: Snapshot, t: Snapshot)
    requires Valid(c) && !c.hardLimitEnable
    ensures PinChange(c, strategy, Init(c, strategy, irq), s).effects == []
    ensures PinChange(c, strategy, Init(c, strategy, irq), s).irq == Init(c, strategy, irq)
    ensures strategy.Debounced? ==>
      WatchdogTimeout(c, PinChange(c, strategy, Init(c, strategy, irq), s).irq, t).effects == []
  {
  }

  /** In the debounced build a burst of pin changes arms the timer once, and
      the timer's expiry leaves it idle again, so each burst is judged once. */
  lemma DebounceBurst(c: LimitConfig, irq: Interrupts, s: Snapshot, t: Snapshot)
    requires Valid(c) && irq.pinChange
    ensures var once := PinChange(c, Debounced, irq, s).irq;
      && PinChange(c, Debounced, once, t).irq == once
      && once.watchdog
      && !WatchdogTimeout(c, once, t).irq.watchdog
  {
  }

  // ---------------------------------------------------------------------------
  // Soft limits

  /** What the realtime executor reports after one protocol_execute_realtime(). */
  datatype RealtimeObs = RealtimeObs(abort: bool, state: SysState)

  /** A report that keeps the feed-hold wait going. */
  predicate KeepsWaiting(o: RealtimeObs)
  {
    !o.abort && o.state != Idle
  }

  /** How the feed-hold wait ended, with the number of executor calls it made;
      `Waiting` when the reports ran out before it ended. */
  datatype Wait = ReachedIdle(polls: nat) | AbortSeen(polls: nat) | Waiting

  /** The wait loop: run the executor, leave on abort, repeat until idle. */
  function WaitForIdle(trace: seq<RealtimeObs>): (w: Wait)
    ensures w.ReachedIdle? ==>
      && 1 <= w.polls <= |trace| && !trace[w.polls - 1].abort && trace[w.polls - 1].state == Idle
      && forall j :: 0 <= j < w.polls - 1 ==> KeepsWaiting(trace[j])
    ensures w.AbortSeen? ==>
      && 1 <= w.polls <= |trace| && trace[w.polls - 1].abort
      && forall j :: 0 <= j < w.polls - 1 ==> KeepsWaiting(trace[j])
    ensures w.Waiting? ==> forall j :: 0 <= j < |trace| ==> KeepsWaiting(trace[j])
    decreases |trace|
  {
    if trace == [] then Waiting
    else if trace[0].abort then AbortSeen(1)
    else if trace[0].state == Idle then ReachedIdle(1)
    else
      match WaitForIdle(trace[1..])
      case ReachedIdle(n) => ReachedIdle(n + 1)
      case AbortSeen(n) => AbortSeen(n + 1)
      case Waiting => Waiting
  }

  /** `n` calls of the realtime executor. */
  function Polls(n: nat): (r: seq<Effect>)
    ensures |r| == n && forall i :: 0 <= i < n ==> r[i] == ExecuteRealtime
  {
    seq(n, _ => ExecuteRealtime)
  }

  /** Stop everything, raise the soft-limit alarm, and let the executor enter
      the alarm state. */
  const SOFT_TRIP: seq<Effect> := [SystemReset, RaiseAlarm(SoftLimit), ExecuteRealtime]

  datatype SoftOutcome = WithinLimits | Alarmed | AbortedWhileHolding | StillHolding

  /** The soft check's result: how it ended, `sys.soft_limit`, and the effects. */
  datatype SoftCheck = SoftCheck(outcome: SoftOutcome, softLimit: bool, effects: seq<Effect>)

  /** limits_soft_check. `violates` is the travel-bounds test's verdict on the
      target, `state` the system state on entry, `softLimit` the flag before,
      and `trace` the executor's reports during a feed-hold wait. */
  function SoftLimitCheck(violates: bool, state: SysState, softLimit: bool, trace: seq<RealtimeObs>): (r: SoftCheck)
    ensures !violates ==> r == SoftCheck(WithinLimits, softLimit, [])
    ensures violates ==> r.softLimit
    ensures violates && state != Cycle ==> r == SoftCheck(Alarmed, true, SOFT_TRIP)
    ensures violates && state == Cycle ==> |r.effects| > 0 && r.effects[0] == RequestFeedHold
    ensures r.outcome == Alarmed <==> violates && (state != Cycle || WaitForIdle(trace).ReachedIdle?)
    ensures r.outcome == Alarmed ==> |r.effects| >= 3 && r.effects[|r.effects| - 3..] == SOFT_TRIP
    ensures r.outcome != Alarmed ==> RaiseAlarm(SoftLimit) !in r.effects && SystemReset !in r.effects
  {
    if !violates then SoftCheck(WithinLimits, softLimit, [])
    else if state == Cycle then
      match WaitForIdle(trace)
      case ReachedIdle(n) => SoftCheck(Alarmed, true, [RequestFeedHold] + Polls(n) + SOFT_TRIP)
      case AbortSeen(n) => SoftCheck(AbortedWhileHolding, true, [RequestFeedHold] + Polls(n))
      case Waiting => SoftCheck(StillHolding, true, [RequestFeedHold] + Polls(|trace|))
    else SoftCheck(Alarmed, true, SOFT_TRIP)
  }

  /** During a cycle the alarm is raised exactly when the executor reports
      idle before it reports an abort; a report of abort first means no
      alarm at all. */
  lemma {:induction false} SoftAlarmOrder(trace: seq<RealtimeObs>, k: nat)
    requires k < |trace| && forall j :: 0 <= j < k ==> KeepsWaiting(trace[j])
    ensures trace[k].abort ==> SoftLimitCheck(true, Cycle, false, trace).outcome == AbortedWhileHolding
    ensures !trace[k].abort && trace[k].state == Idle ==>
      SoftLimitCheck(true, Cycle, false, trace).outcome == Alarmed
    decreases k
  {
    if k > 0 {
      SoftAlarmOrder(trace[1..], k - 1);
    }
  }
}

=== FILE: spindle.dfy ===
/** Spindle control on the Bungard board: the spindle is on or off through
    the enable bit of latch 1 and its speed is the low nibble of latch 1.
    Only the integer path is modelled; the PWM value of a programmed rpm is
    computed elsewhere and arrives here as a byte. */
module Spindle {
  import opened System
  import opened Bungard

  /** What spindle_get_state reports. The board has no direction control,
      so an enabled spindle always reads as clockwise. */
  datatype SpindleState = Disabled | Clockwise

  /** The state requested from spindle_set_state. */
  datatype Request = Disable | EnableCw | EnableCcw

  /** The PWM values that mean "off" and "slowest running speed". */
  datatype PwmLimits = PwmLimits(off: bv8, min: bv8)

  /** The result of converting a programmed rpm: the PWM byte, and the speed
      the conversion stores in `sys.spindle_speed`. */
  datatype PwmSetting = PwmSetting(value: bv8, speed: real)

  /** The part of `sys` the spindle code reads or writes, and the bus. */
  datatype Controller = Controller(
    abort: bool,              // sys.abort
    state: SysState,          // sys.state
    spindleSpeed: real,       // sys.spindle_speed
    reportOvrCounter: bv8,    // sys.report_ovr_counter
    plannerSyncs: nat,        // calls of protocol_buffer_synchronize so far
    bus: Bus)

  /** spindle_get_state: decided by the cached enable bit alone. */
  function GetState(b: Bus): (s: SpindleState)
    ensures s == Clockwise <==> b.latch1 & SPINDLE_ENABLE_MASK != 0
  {
    if GetSpindleEnable(b) then Clockwise else Disabled
  }

  /** spindle_stop: the brake request is inert, so this only clears the enable
      bit, writing latch 1 if it was set. */
  function Stop(b: Bus): (r: Bus)
    ensures GetState(r) == Disabled
    ensures r.latch1 == b.latch1 & !SPINDLE_ENABLE_MASK
    ensures r.strobes == b.strobes + (if GetState(b) == Disabled then [] else [LATCH1_WRITE_MASK | (r.latch1 & PAYLOAD_MASK)])
    ensures r.latch2 == b.latch2 && r.overrideFlag == b.overrideFlag
  {
    SetSpindleEnable(SetSpindleBrake(b, true), false)
  }

  /** spindle_init: the rpm-to-PWM gradient is floating point and left out;
      what remains is a stop. */
  function Init(b: Bus): (r: Bus)
    ensures GetState(r) == Disabled
    ensures r.latch1 & !SPINDLE_ENABLE_MASK == b.latch1 & !SPINDLE_ENABLE_MASK
  {
    Stop(b)
  }

  /** spindle_set_speed: the off value stops the spindle; any other value
      selects speed step (value - min), wrapping as a byte, and runs it. */
  function SetSpeed(pwm: PwmLimits, b: Bus, value: bv8): (r: Bus)
    ensures value == pwm.off ==> r == Stop(b)
    ensures value != pwm.off ==>
      && GetState(r) == Clockwise
      && r.latch1 & SPINDLE_SPEED_MASK == (value - pwm.min) & SPINDLE_SPEED_MASK
      && r.latch1 & 0xE0 == b.latch1 & 0xE0
    ensures r.latch2 == b.latch2 && r.overrideFlag == b.overrideFlag
  {
    if value == pwm.off then Stop(b) else SetSpindleSpeed(b, value - pwm.min)
  }

  /** spindle_set_state: nothing during an abort; otherwise stop (zeroing the
      recorded speed) or run at the converted PWM value, then ask for an
      immediate override report. */
  function SetState(pwm: PwmLimits, c: Controller, request: Request, setting: PwmSetting): (r: Controller)
    ensures c.abort ==> r == c
    ensures !c.abort ==> r.reportOvrCounter == 0
    ensures !c.abort && request == Disable ==>
      && r.spindleSpeed == 0.0
      && GetState(r.bus) == Disabled
      && r.bus.latch1 == c.bus.latch1 & !SPINDLE_ENABLE_MASK
    ensures !c.abort && request != Disable ==>
      && r.spindleSpeed == setting.speed
      && (setting.value == pwm.off ==> GetState(r.bus) == Disabled)
      && (setting.value != pwm.off ==>
            && GetState(r.bus) == Clockwise
            && r.bus.latch1 & SPINDLE_SPEED_MASK == (setting.value - pwm.min) & SPINDLE_SPEED_MASK)
    ensures r.bus.latch2 == c.bus.latch2 && r.bus.overrideFlag == c.bus.overrideFlag
    ensures r.abort == c.abort && r.state == c.state && r.plannerSyncs == c.plannerSyncs
  {
    if c.abort then c
    else if request == Disable then c.(spindleSpeed := 0.0, bus := Stop(c.bus), reportOvrCounter := 0)
    else c.(spindleSpeed := setting.speed, bus := SetSpeed(pwm, c.bus, setting.value), reportOvrCounter := 0)
  }

  /** spindle_sync: ignored in check mode; otherwise drain the planner, then
      set the state. The drain runs the realtime executor, which may raise
      `sys.abort` (`drainAborts`) but never clears it, so the set-state
      guard sees an abort that was pending before the sync as well as one
      the drain raised. */
  function Sync(pwm: PwmLimits, c: Controller, request: Request, setting: PwmSetting, drainAborts: bool): (r: Controller)
    ensures c.state == CheckMode ==> r == c
    ensures c.state != CheckMode ==>
      && r.plannerSyncs == c.plannerSyncs + 1 && r.abort == (c.abort || drainAborts)
      && r.bus.latch2 == c.bus.latch2 && r.bus.overrideFlag == c.bus.overrideFlag
      && (r.abort ==>
            r.bus == c.bus && r.spindleSpeed == c.spindleSpeed && r.reportOvrCounter == c.reportOvrCounter)
      && (!r.abort ==> r.reportOvrCounter == 0)
      && (!r.abort && request == Disable ==> r.spindleSpeed == 0.0 && GetState(r.bus) == Disabled)
      && (!r.abort && request != Disable ==>
            r.spindleSpeed == setting.speed && (GetState(r.bus) == Clockwise <==> setting.value != pwm.off))
  {
    if c.state == CheckMode then c
    else SetState(pwm, c.(plannerSyncs := c.plannerSyncs + 1, abort := c.abort || drainAborts), request, setting)
  }

  // ---------------------------------------------------------------------------
  // Properties

  /** Speed commands are idempotent on the bus: repeating a running speed
      writes nothing, and neither does stopping a stopped spindle. */
  lemma SetSpeedIdempotent(pwm: PwmLimits, b: Bus, value: bv8)
    ensures SetSpeed(pwm, SetSpeed(pwm, b, value), value) == SetSpeed(pwm, b, value)
    ensures |SetSpeed(pwm, b, value).strobes| <= |b.strobes| + 1
  {
  }

  /** Partner of Sync: whatever the request and whether or not an abort is
      pending, a sync keeps the cache coherent with the board; an abort
      pending before the sync leaves the board untouched and the abort in
      place; and when it acts the board's spindle runs exactly when a run
      request with a value other than "off" was made. */
  lemma SyncKeepsCoherent(pwm: PwmLimits, c: Controller, request: Request, setting: PwmSetting, drainAborts: bool)
    requires Coherent(c.bus)
    ensures var r := Sync(pwm, c, request, setting, drainAborts);
      && Coherent(r.bus)
      && (c.abort ==> r.abort && r.bus == c.bus)
      && (c.state != CheckMode && !c.abort && !drainAborts ==>
            (GetState(r.bus) == Clockwise <==> request != Disable && setting.value != pwm.off))
  {
    if c.state != CheckMode && !c.abort && !drainAborts {
      var r := Sync(pwm, c, request, setting, drainAborts);
      if request == Disable || setting.value == pwm.off {
        assert r.bus == Stop(c.bus);
        SpindleEnableKeepsCoherent(c.bus, false);
      } else {
        assert r.bus == SetSpindleSpeed(c.bus, setting.value - pwm.min);
        SpindleSpeedKeepsCoherent(c.bus, setting.value - pwm.min);
      }
    }
  }

  /** A run request with a speed value other than "off" leaves the spindle
      running, and the cache coherent with the board. */
  lemma RunRequestRuns(pwm: PwmLimits, c: Controller, request: Request, setting: PwmSetting)
    requires !c.abort && request != Disable && setting.value != pwm.off
    requires Coherent(c.bus)
    ensures GetState(SetState(pwm, c, request, setting).bus) == Clockwise
    ensures Coherent(SetState(pwm, c, request, setting).bus)
  {
    SpindleSpeedKeepsCoherent(c.bus, setting.value - pwm.min);
  }
}

=== FILE: system.dfy ===
/** Shared vocabulary of the controller: axis numbering, the realtime system
    state, the alarm codes the limit and homing code raises, and the effects
    on collaborators (planner, stepper engine, realtime executor) that the
    model records instead of performing. */
module System {

  /** Cartesian machine with three axes; an axis is named by its index,
      which is also its bit position in every per-axis mask. */
  const N_AXIS: nat := 3
  const X_AXIS: nat := 0
  const Y_AXIS: nat := 1
  const Z_AXIS: nat := 2

  /** The one-hot mask of bit `idx` (grbl's `bit(idx)`). */
  function Bit(idx: nat): (r: bv8)
    requires idx < 8
    ensures r != 0 && r & (r - 1) == 0
    ensures idx == X_AXIS ==> r == 0x01
    ensures idx == Y_AXIS ==> r == 0x02
    ensures idx == Z_AXIS ==> r == 0x04
  {
    (1 as bv8) << idx
  }

  /** `sys.state`: the foreground state machine's current state. */
  datatype SysState = Idle | Alarm | CheckMode | Homing | Cycle | Hold | Jog | SafetyDoor | Sleep

  /** Causes a critical event can be raised with (`EXEC_ALARM_*`). */
  datatype AlarmCode =
    | HardLimit
    | SoftLimit
    | HomingFailReset
    | HomingFailDoor
    | HomingFailApproach

  /** Observable actions on code outside this model, in the order issued. */
  datatype Effect =
    | SystemReset                              // mc_reset(): kill motion, spindle and coolant
    | RaiseAlarm(code: AlarmCode)              // system_set_exec_alarm(code)
    | ExecuteRealtime                          // protocol_execute_realtime()
    | RequestFeedHold                          // system_set_exec_state_flag(EXEC_FEED_HOLD)
    | PlanLine(target: seq<real>, rate: real)  // plan_buffer_line() of a system motion without feed override
    | StartSteppers                            // st_prep_buffer() then st_wake_up()
    | KillSteppers                             // st_reset()
    | ClearCycleStop                           // system_clear_exec_state_flag(EXEC_CYCLE_STOP)
    | Settle                                   // delay_ms(homing_debounce_delay)

  /** One `RaiseAlarm` effect per code, in order. */
  function Raise(codes: seq<AlarmCode>): (r: seq<Effect>)
    ensures |r| == |codes|
    ensures forall i :: 0 <= i < |codes| ==> r[i] == RaiseAlarm(codes[i])
  {
    seq(|codes|, i requires 0 <= i < |codes| => RaiseAlarm(codes[i]))
  }
}
